=== FILE: README.md ===
# A verified model of the real-time MIDI bridge

The bridge sits between a live performer in a DAW and a generative
music model. A MIDI clock (24 pulses per quarter note) drives a pulse
counter, and the bridge does four things:
- it files the performer's notes into per-bar buckets anchored at the
  first note played while the clock runs;
- at each bar boundary it turns the finished bar into a one-track prompt
  and asks the model to continue it;
- it stores the reply, and once an odd bar completes a pair it schedules
  the two bars' messages at target pulses;
- it drains that queue as the clock advances.

Beside the bridge run a rolling buffer of recent messages and a tempo
tracker that estimates beats per minute from clock intervals.

The model follows the program's files, one Dafny module each:

| module | file | what it holds |
|---|---|---|
| `Wrappers` | `wrappers.dfy` | `Option` |
| `PyInt` | `pyint.dfy` | Python's `//`, `int()` truncation of quotients and of reals, and their bounds |
| `Ports` | `port_names.dfy` | the exact-then-prefix choice of a port name from the listed names |
| `Clock` | `clock_grid.py` → `clock_grid.dfy` | the pulse clock: class `ClockGrid`, with `Transport`, `Step`, `Report`, `Run` and `Reports` as its value-level specification |
| `Tempo` | `tempo_tracker.py` → `tempo_tracker.dfy` | class `TempoTracker`, with `TempoState`, `TempoStep`, `PulseStep` and the bounded interval window `BoundedAppend`/`WindowOf` |
| `MidiBuffer` | `midi_buffer.py` → `midi_buffer.dfy` | `TimestampedMidiMsg` and class `RollingMidiBuffer`, specified by `Unexpired` |
| `Sorting` | `sorting.dfy` | Python's stable `sorted(…, key=…)` as an insertion sort |
| `PromptMidi` | `prompt_midi.py` → `prompt_midi.dfy` | the note/pedal dictionary (`PairAll`, `MidiDictOf`) and the prompt track (`TrackOf`, `Emit`), each with the loop methods that compute it |
| `Bridge` | `ableton_bridge_engine.py` → `bridge_engine.dfy` | class `AbletonBridge`: the per-message input step, the per-poll boundary step, bar-boundary generation, 2-bar and whole-file scheduling, and the drain |

Where the source mutates state, the model is a class whose methods
update its fields. Each such method's postcondition ties the new state to
a function of the old one: `Clock.Step`, `Tempo.TempoStep`,
`MidiBuffer.Unexpired`, `Bridge.Due` and `Bridge.NotDue`, `Bridge.AddToBar`,
`Bridge.Continuation`, `Bridge.TwoBarSchedule` and `Bridge.FileTargets`.
Lemmas prove what the program promises about those functions.

Loops that build lists are methods with loop invariants, proved against
specification functions:
- pairing: `PairMessages` against `PairAll`;
- closing open notes: `CloseRemaining` against `CloseAll`;
- emission: `EmitTrack` against `Emit`;
- the drain partition: `Partition` against `Due`/`NotDue`;
- tick-to-pulse scheduling: `ScheduleBar` and `ScheduleFile` against
  `BarTargets`/`FileTargets`;
- the buffer trim: `TrimOldMessages` against `Unexpired`.

Some inputs of the original are parameters of the model:
- the clock readings, the pulse count and transport flag read from the
  pulse clock, the current tempo and the list of available port names;
- the generative model, a function `Generator` from a prompt track to an
  optional parsed MIDI file.

## Model

| member | source | states |
|---|---|---|
| PyInt.FloorDivBounds | real-time/ableton_bridge_engine.py:269 | Python's floored `//` as used for bar numbers: for a positive divisor, q·b ≤ a < q·b + b; mirrored for a negative one |
| PyInt.TruncDivBounds | real-time/ableton_bridge_engine.py:524 | `int(a / b)` truncates toward zero: \|q\|·\|b\| ≤ \|a\| < \|q\|·\|b\| + \|b\|, and q is positive only when a and b have the same sign |
| PyInt.Trunc | real-time/prompt_midi.py:56 | `int(x)` of a real: the floor for x ≥ 0, the ceiling for x < 0, within one of x |
| PyInt.TruncMonotone | real-time/prompt_midi.py:227 | truncation never maps a larger real to a smaller integer |
| Ports.FirstPrefixMatch | real-time/ableton_bridge_engine.py:206-209 | `matched[0]`: the first listed name that starts with the configured name, with no earlier listed name doing so; None exactly when no listed name does |
| Ports.ResolvePortName | real-time/clock_grid.py:78-86 | the configured name when listed, else the first prefix match, else the configured name; the result is listed or is the configured name, and always starts with it |
| Ports.OpenPortName | real-time/ableton_bridge_engine.py:199-240 | the port the bridge opens: exact name when listed, else the first prefix match; fails (None) exactly when no listed name starts with the configured one |
| Ports.OpenAgreesWithResolve | real-time/ableton_bridge_engine.py:201-210 | the bridge opens exactly the name the clock resolves, whenever that name is listed |
| Clock.PulsesPerBlock | real-time/clock_grid.py:31-32 | `max(1, measures * beats_per_bar * 24)`: at least 1 and at least measures·pulses-per-bar |
| Clock.MeasureTable | real-time/clock_grid.py:31-32 | the block lengths for 1–4 and 8 measures of 4/4 and 1 and 4 measures of 3/4 (96, 192, 288, 384, 768, 72, 288) |
| Clock.Step | real-time/clock_grid.py:98-124 | start resets the count to 0, runs and forgets the time; stop clears and continue sets the running flag, keeping count and time; a tick adds exactly 1 whether running or not and records `now`; other messages change nothing |
| Clock.Report | real-time/clock_grid.py:132-143 | a boundary is reported iff the message is a tick, the transport runs and the new count is a multiple of the block; the reported pulse is the new count |
| Clock.RunPulses | real-time/clock_grid.py:100-124 | over any message stream the counter equals the ticks since the last start (added to the initial count when there is no start) |
| Clock.RunningBoundaries | real-time/clock_grid.py:117-143 | after a start, n ticks report exactly the multiples of the block length in 1..n, in increasing order |
| Clock.StoppedTicksSilent | real-time/clock_grid.py:117-143 | while stopped, ticks are counted but no boundary is ever reported |
| Clock.ClockGrid.constructor | real-time/clock_grid.py:26-43 | derived bar and block lengths, transport stopped at count 0 with no time, no callbacks |
| Clock.ClockGrid.RegisterBoundaryCallback | real-time/clock_grid.py:45-47 | appends the callback and leaves the transport alone |
| Clock.ClockGrid.ResolvePortName | real-time/clock_grid.py:78-86 | the clock's own name when listed; else the first listed name it prefixes; else its own name; the result always starts with it |
| Clock.ClockGrid.HandleMsg | real-time/clock_grid.py:98-115 | the new transport is `Step` of the old; the boundary is `Report` of the old; every registered callback is invoked exactly when a boundary is reported |
| Clock.ClockGrid.HandlePulse | real-time/clock_grid.py:117-143 | the same for a clock tick |
| Tempo.BoundedAppend | real-time/tempo_tracker.py:139 | an append to a `deque(maxlen=cap)` never exceeds cap entries and ends with the new value |
| Tempo.WindowOf | real-time/tempo_tracker.py:137-139 | the window after any sequence of appends holds at most cap intervals |
| Tempo.WindowOfIsLatest | real-time/tempo_tracker.py:36 | the window holds exactly the last cap intervals (all of them while fewer): the oldest is evicted first |
| Tempo.NextBpm | real-time/tempo_tracker.py:142-147 | the estimate changes only when more than one interval is held and their mean is positive |
| Tempo.PulseStep | real-time/tempo_tracker.py:132-156 | a pulse adds 1 to the counter and records the time; with no previous time it adds no interval and keeps the estimate; the window stays bounded |
| Tempo.TempoStep | real-time/tempo_tracker.py:109-130 | start empties the window and keeps the estimate; stop/continue/other change no interval; a tick after a recorded time ends the window with the new interval |
| Tempo.TransportAgreesWithClock | real-time/tempo_tracker.py:109-156 | the tracker's transport and counter move exactly as the pulse clock's |
| Tempo.FirstTickAfterStart | real-time/tempo_tracker.py:111-139 | the first tick after a start records a time but no interval |
| Tempo.TempoTracker.constructor | real-time/tempo_tracker.py:21-45 | stopped at count 0, no time, empty window, 120 BPM |
| Tempo.TempoTracker.ResolvePortName | real-time/tempo_tracker.py:75-96 | the tracker's own name when listed; else the first listed name it prefixes; else its own name; the result always starts with it |
| Tempo.TempoTracker.HandleClockMessage | real-time/tempo_tracker.py:109-130 | the new state is `TempoStep` of the old, and the window stays within `window_pulses` |
| Tempo.TempoTracker.HandleClockPulse | real-time/tempo_tracker.py:132-156 | the new state is `PulseStep` of the old, and the window stays within `window_pulses` |
| MidiBuffer.Unexpired | real-time/midi_buffer.py:74-80 | the trim leaves an empty buffer or one whose front is not older than the cutoff, and every dropped message was older |
| MidiBuffer.UnexpiredIsSuffix | real-time/midi_buffer.py:79-80 | only a prefix is dropped: what remains is a suffix of the old buffer, in order |
| MidiBuffer.UnexpiredWithinWindow | real-time/midi_buffer.py:74-80 | in a chronological buffer every retained message is within the window, and the result stays chronological |
| MidiBuffer.NewestSurvives | real-time/midi_buffer.py:46-51 | a message appended at or after the cutoff survives the trim and stays last |
| MidiBuffer.AppendKeepsChronological | real-time/midi_buffer.py:46-51 | appending with a clock that never runs backwards keeps the buffer chronological |
| MidiBuffer.RollingMidiBuffer.constructor | real-time/midi_buffer.py:28-36 | empty buffer with the given window |
| MidiBuffer.RollingMidiBuffer.AddMessage | real-time/midi_buffer.py:38-51 | the new buffer is the old one with the stamped message appended, then trimmed |
| MidiBuffer.RollingMidiBuffer.GetMessages | real-time/midi_buffer.py:53-59 | trims, and returns exactly what remains |
| MidiBuffer.RollingMidiBuffer.Clear | real-time/midi_buffer.py:61-64 | the buffer is empty |
| MidiBuffer.RollingMidiBuffer.DurationSeconds | real-time/midi_buffer.py:66-72 | 0 for an empty buffer; never negative for a chronological one |
| MidiBuffer.RollingMidiBuffer.TrimOldMessages | real-time/midi_buffer.py:74-80 | the new buffer is `Unexpired` of the old at `now - window` |
| Sorting.Insert | real-time/prompt_midi.py:200 | an insertion adds exactly one element: the multiset grows by it |
| Sorting.InsertSorted | real-time/prompt_midi.py:200 | inserting into a sorted sequence keeps it sorted |
| Sorting.SortBy | real-time/prompt_midi.py:200 | `sorted(…, key=…)` returns a permutation of its input, sorted by the key |
| Sorting.KeyFilter | real-time/prompt_midi.py:200 | the elements with a given key, each with that key and from the input |
| Sorting.InsertKeyFilter | real-time/prompt_midi.py:200 | an insertion lands in front of every element with the same key and keeps the others' order among equal keys |
| Sorting.SortByStable | real-time/prompt_midi.py:223 | `sorted` is stable: for every key, the elements with that key come out in input order |
| PromptMidi.KeyIndex | real-time/prompt_midi.py:60-61 | the position of an open (pitch, velocity) key, or None exactly when it is not open |
| PromptMidi.FirstWithPitch | real-time/prompt_midi.py:71-87 | the first open note of the pitch in insertion order, with no earlier one of that pitch; None exactly when none is open |
| PromptMidi.SetStart | real-time/prompt_midi.py:60-61 | `active_notes[key] = tick`: an open key keeps its place and gets the new start tick, every other entry unchanged; a new key is appended last |
| PromptMidi.PairStep | real-time/prompt_midi.py:58-112 | a sounding note on sets its key's start tick (`SetStart`) and touches nothing else; a release closes the first open note of its pitch with duration max(1, end − start) and that note's velocity, or changes nothing; a sustain appends data 1 iff value > 64 |
| PromptMidi.PairingBound | real-time/prompt_midi.py:54-124 | closed plus open notes never outnumber the note ons with positive velocity |
| PromptMidi.PairedNotesWellFormed | real-time/prompt_midi.py:75-84 | every closed note has duration ≥ 1 and tick equal to its start |
| PromptMidi.CloseAllFacts | real-time/prompt_midi.py:114-124 | every note still open is emitted once, in insertion order, with duration 1 |
| PromptMidi.OpenKeysDistinct | real-time/prompt_midi.py:58-61 | the open notes behave as a dictionary: no (pitch, velocity) key is ever open twice |
| PromptMidi.PedalsAreSustains | real-time/prompt_midi.py:107-112 | the pedal list is exactly one entry per sustain message, in order, at its tick, data 1 iff value > 64 |
| PromptMidi.BufferToMidiDict | real-time/prompt_midi.py:19-130 | empty input gives no notes, no pedals, resolution 480; otherwise the dictionary of `PairAll` with notes closed; at most one note per sounding note on; every note well formed |
| PromptMidi.PairMessages | real-time/prompt_midi.py:54-112 | the pairing loop computes `PairAll` of the buffer |
| PromptMidi.PairMessage | real-time/prompt_midi.py:58-112 | one iteration of the loop, including the first-match search, computes `PairStep` |
| PromptMidi.CloseRemaining | real-time/prompt_midi.py:114-124 | the closing loop appends `CloseAll` of the open notes |
| PromptMidi.Header | real-time/prompt_midi.py:190-192 | one tempo meta message exactly when a non-zero BPM is given |
| PromptMidi.Recent | real-time/prompt_midi.py:170-172 | the messages at or after the cutoff: each kept one is recent and from the input, and every recent one is kept |
| PromptMidi.RecentCounts | real-time/prompt_midi.py:172 | every recent message is kept as often as it occurs, every older one is dropped |
| PromptMidi.RecentAppend | real-time/prompt_midi.py:172 | the window keeps buffer order: filtering a concatenation filters each part |
| PromptMidi.RecentHead | real-time/prompt_midi.py:221 | the first kept message, whose timestamp is the tick origin, is the first recent one of the buffer |
| PromptMidi.MinPulse | real-time/prompt_midi.py:198 | the least pulse among the messages that carry one, and it occurs |
| PromptMidi.PulseTicks | real-time/prompt_midi.py:203-205 | each message with a pulse gets `(pulse − first) · tpb / 24`, computed exactly and truncated (see the floating-point line under Left out); others get none |
| PromptMidi.StampTicks | real-time/prompt_midi.py:226-227 | each message gets the truncated tick of its millisecond offset at tpb ticks per 500 ms |
| PromptMidi.Encode | real-time/prompt_midi.py:208-218 | exactly the sounding note ons, releases and sustain changes are encoded, each at the given delta |
| PromptMidi.EncodeFaithful | real-time/prompt_midi.py:208-218 | note on keeps note and velocity; a release becomes note off with its velocity or 0; a sustain becomes controller 64 at 127 or 0 |
| PromptMidi.Emit | real-time/prompt_midi.py:202-218 | the emission never emits more events than messages |
| PromptMidi.EmitEventsWellFormed | real-time/prompt_midi.py:206 | every emitted event is a note or controller event with a non-negative delta |
| PromptMidi.EmitEncodes | real-time/prompt_midi.py:202-218 | event k is the encoding of the k-th emitted message at event k's delta |
| PromptMidi.EmitSums | real-time/prompt_midi.py:205-218 | when ticks never decrease, the running sums of the deltas are exactly the absolute ticks of the emitted messages |
| PromptMidi.PulseTickMonotone | real-time/prompt_midi.py:205 | a later pulse never gets an earlier tick, and none at or after the first pulse is negative |
| PromptMidi.StampTickMonotone | real-time/prompt_midi.py:226-227 | a later timestamp never gets an earlier tick, and none after the first is negative |
| PromptMidi.PulseTicksOrdered | real-time/prompt_midi.py:196-205 | on the pulse path, the ticks of the pulse-sorted messages are non-negative and never decrease |
| PromptMidi.PermutationKeepsLowerBound | real-time/prompt_midi.py:198-200 | sorting keeps every pulse at or above the first pulse |
| PromptMidi.SortedPulseTicksOrdered | real-time/prompt_midi.py:200-205 | messages in pulse order get non-decreasing, non-negative ticks |
| PromptMidi.PulseTrackTimes | real-time/prompt_midi.py:196-218 | on the pulse path the deltas sum, event by event, to the tick of the message encoded |
| PromptMidi.StampTicksOrdered | real-time/prompt_midi.py:220-227 | on the timestamp path, when no message predates the first, ticks are non-negative and never decrease |
| PromptMidi.StampTrackTimes | real-time/prompt_midi.py:220-240 | on the timestamp path the deltas sum, event by event, to the tick of the message encoded |
| PromptMidi.EmitTrack | real-time/prompt_midi.py:202-240 | the emission loop, with `last_tick` advancing only on emitted messages, computes `Emit` |
| PromptMidi.BufferToTrack | real-time/prompt_midi.py:133-240 | empty input or an empty window gives the tempo (if any) and one program change 0; otherwise the tempo then the emitted events; every event after the tempo has a non-negative delta |
| Bridge.TickToPulseMonotone | real-time/ableton_bridge_engine.py:583 | a later tick is never scheduled at an earlier pulse, and no non-negative tick at a negative one |
| Bridge.TickSumMonotone | real-time/ableton_bridge_engine.py:581-582 | the running tick never decreases |
| Bridge.BarTargets | real-time/ableton_bridge_engine.py:580-585 | one scheduled entry per message of the bar |
| Bridge.BarTargetsAt | real-time/ableton_bridge_engine.py:580-585 | entry k schedules message k at base + the pulse of its absolute tick |
| Bridge.BarTargetsOrdered | real-time/ableton_bridge_engine.py:579-593 | with a positive resolution, a bar's messages are scheduled in order, none before the base, with non-decreasing targets |
| Bridge.TwoBarScheduleOrdered | real-time/ableton_bridge_engine.py:570-593 | bar 1 is scheduled in order from `anchor + (bar2+1)·ppb`, then bar 2 in order from one bar later; targets never decrease within a bar |
| Bridge.ChannelMsgs | real-time/ableton_bridge_engine.py:553-556 | the kept messages are channel messages from the track |
| Bridge.ChannelMsgsCounts | real-time/ableton_bridge_engine.py:553-556 | every note on, note off and control change is kept as often as it occurs, and nothing else |
| Bridge.ChannelMsgsAppend | real-time/ableton_bridge_engine.py:553-556 | the filter keeps track order: filtering a concatenation filters each part |
| Bridge.ChannelMsgsMember | real-time/ableton_bridge_engine.py:553-556 | a message is kept iff it is a channel message of the track |
| Bridge.BarMessagesMember | real-time/ableton_bridge_engine.py:551-557 | a message is stored iff it is a channel message of some track of the file |
| Bridge.BarMessagesChannels | real-time/ableton_bridge_engine.py:551-557 | the stored messages are exactly the channel messages of the file's tracks, in both directions |
| Bridge.TrackTargetsCover | real-time/ableton_bridge_engine.py:516-526 | every channel message of a track is scheduled once, in order, none before the boundary |
| Bridge.FileTargetsCover | real-time/ableton_bridge_engine.py:514-526 | the same across all tracks, each restarting its tick counter |
| Bridge.DrainPartitions | real-time/ableton_bridge_engine.py:391-399 | everything sent is due (target ≤ pulse) and everything kept is not |
| Bridge.DrainPermutes | real-time/ableton_bridge_engine.py:391-399 | the sent and kept messages together are exactly the old queue |
| Bridge.DrainOnce | real-time/ableton_bridge_engine.py:391-399 | delivery is one-shot: a second drain at the same pulse sends nothing and keeps everything |
| Bridge.Partition | real-time/ableton_bridge_engine.py:391-399 | the partition loop yields `Due` and `NotDue` of the queue, each in queue order, together a permutation of it |
| Bridge.AnyHumanActivity | real-time/ableton_bridge_engine.py:338-343 | true iff some message is a sounding note on or a sustain change |
| Bridge.BarEndClosedForm | real-time/ableton_bridge_engine.py:262-263 | the end of bar k is `anchor + (k+1)·pulses_per_bar` |
| Bridge.BarOfCurrentBar | real-time/ableton_bridge_engine.py:269 | a note on inside the bar in progress is filed under that bar |
| Bridge.AddToBar | real-time/ableton_bridge_engine.py:270-278 | the note is appended to its bar's bucket, which is created if missing; no other bucket changes |
| Bridge.AbletonBridge.constructor | real-time/ableton_bridge_engine.py:29-124 | human phase, no anchor, bar 0, empty buckets, queues and schedule; derived bar and block lengths |
| Bridge.AbletonBridge.HandleInput | real-time/ableton_bridge_engine.py:248-297 | note on, note off and sustain go to the rolling buffer and other messages do not; only a note on sets the anchor; only a note on touches the bar buckets; the grid invariant holds |
| Bridge.AbletonBridge.HandleNoteOn | real-time/ableton_bridge_engine.py:257-279 | the anchor is set once, only while the clock runs, with boundary `anchor + ppb` and bar 0; once anchored the note is filed under bar `(p − anchor) // ppb`; the note enters the rolling buffer |
| Bridge.AbletonBridge.BoundaryStep | real-time/ableton_bridge_engine.py:311-319 | at most one bar per poll, exactly when the pulse reaches the boundary; the old bar is handled: its reply (`Continuation`) is stored, and its pair is scheduled and `last_scheduled_bar` set exactly when it completes one; bar index +1 and boundary + ppb; without a boundary nothing changes |
| Bridge.AbletonBridge.AdvanceBar | real-time/ableton_bridge_engine.py:317-319 | bar index +1 and boundary + ppb, keeping boundary = end of the current bar |
| Bridge.AbletonBridge.OnBarBoundary | real-time/ableton_bridge_engine.py:418-497 | no bucket, an empty bucket or no reply stores nothing; a reply is stored for the bar; playback is queued only when an odd bar completes a stored pair |
| Bridge.AbletonBridge.StoreGeneratedBar | real-time/ableton_bridge_engine.py:479-488 | the reply is stored; the pair is scheduled and `last_scheduled_bar` set only for an odd bar whose predecessor is stored |
| Bridge.AbletonBridge.Schedule2BarPlayback | real-time/ableton_bridge_engine.py:562-602 | a missing bar changes nothing; otherwise both bars' messages are appended after the existing queue |
| Bridge.AbletonBridge.ScheduleGeneratedMidi | real-time/ableton_bridge_engine.py:504-545 | every channel message of every track is appended at boundary + pulse of its tick; playback ends one block later; a zero resolution with messages to convert changes nothing |
| Bridge.AbletonBridge.ServiceScheduledMessages | real-time/ableton_bridge_engine.py:384-414 | without a clock nothing changes; otherwise the due messages are sent and the rest kept in order; phase returns to human exactly when the model's end pulse is reached |
| Bridge.AbletonBridge.HasHumanActivity | real-time/ableton_bridge_engine.py:335-343 | trims the buffer, then true iff a retained message is a sounding note on or a sustain change |
| Bridge.GenerateFromBar | real-time/ableton_bridge_engine.py:424-479 | a missing or empty bucket gives nothing; with human notes, nothing exactly when the model does not reply to the bar's prompt; a reply gives exactly its channel messages |
| Bridge.ContinuationCases | real-time/ableton_bridge_engine.py:424-479 | the same cases proved of `Continuation`, the function the boundary step is stated with |
| Bridge.ScheduleBar | real-time/ableton_bridge_engine.py:580-585 | the per-bar loop computes `BarTargets` |
| Bridge.ScheduleFile | real-time/ableton_bridge_engine.py:514-526 | the nested loop over tracks computes `FileTargets` |

## Left out

- Threads, polling loops, sleeps, queues and locks (`run`, `shutdown`, `_input_loop`, `_generation_loop`, `_output_loop`, the clock and tempo loops): only their per-iteration bodies are modelled, as sequential steps.
- MIDI port I/O (opening, `iter_pending`, `send`, `close`): the exact-then-prefix name choice is modelled over a given list of names (`Ports.OpenPortName`); sending a drained message is not.
- Reading and writing MIDI files, temporary files and `os.unlink`: a parsed generated file is a list of tracks of (kind, delta tick) messages, and the prompt is the list of track events that would be saved.
- The generative model and its wrapper (`aria_engine.py`) are foreign code: the model is the `Generator` parameter. The generation horizon in seconds is not modelled.
- `ableton_bridge.py` (command-line entry point, checkpoint search) is not part of this model.
- The failsafe timer, logging and the statistics counters (`generation_count`, `skip_count`, `generation_times`, `last_generation_time`) only log or count, and are left out.
- `_trigger_generation`, `_on_block_boundary` and `_play_midi_file_with_timing` are not used by the per-bar pipeline and are left out.
- Floating point: times, intervals and tempo are exact reals. The average interval and the BPM estimate are therefore exact, and `int(x)` is exact truncation (`PyInt.Trunc`). `int((tick / tpq) * 24.0)` is the exact truncated quotient `(tick · 24) / tpq`, which can differ from the float result at rounding edges. Likewise the prompt's pulse-path tick `int(((pulse − first_pulse) / 24) · ticks_per_beat)` (`PromptMidi.PulseTicks`) is the exact truncated quotient `((pulse − first_pulse) · ticks_per_beat) / 24`. In doubles the program's tick is one lower for some offsets: at 480 ticks per beat, offset 49 gives 979 where the exact value is 980. Rounded float ticks are still non-negative and non-decreasing in the pulse, and the ordering and delta-sum lemmas rely on nothing more, but the model does not state the float values.
- `get_microseconds_per_beat` and the integer tempo value of the tempo meta message are not modelled: the meta message carries the BPM itself.
- The getters of the clock and the tracker are plain field reads of the classes.
- Bridge.AbletonBridge.constructor: requires a non-zero `beats_per_bar`. With 0, every bar number `//` raises, which the model does not follow.
- The bar buckets hold the same record as the rolling buffer. The source's ad-hoc record has no timestamp, and the per-bar prompt has pulses, so the timestamp is never read.
- Nothing in the bridge sets the phase to MODEL. The model keeps the field, and only the drain writes it (back to HUMAN).
- The bridge has no strict-window filter and no note-off synthesis for generated output. `_schedule_generated_midi` extends the queue rather than replacing it. The model does the same.
- Per-bar storage keeps only channel messages, so the delta times of dropped meta messages are lost before the 2-bar schedule sums ticks. The model does the same.
- The `try/except` blocks that log and return are modelled by their effect: a missing anchor or a zero resolution in the 2-bar playback leaves the queue unchanged. In `_schedule_generated_midi`, a missing clock leaves the end pulse unchanged.
- Bridge.AbletonBridge.Schedule2BarPlayback: the appended part is stated (`PairSchedule`) only for consecutive bars, the only way the bridge calls it.
- PromptMidi.EmitTrack: its ensures ties the body to `Emit`. The delta-sum property is stated about `Emit` in `PulseTrackTimes`, `StampTrackTimes` and `EmitSums`.
- PromptMidi.Emit: its own ensures only bounds the length. Event shape and deltas are in `EmitEventsWellFormed` and `EmitEncodes`.
- PromptMidi.Encode: the exact event for each kind is stated in `EncodeFaithful`.
- Bridge.ScheduleFile: its ensures ties the result to `FileTargets`. Coverage and bounds are in `FileTargetsCover`.
- Tempo.BoundedAppend: its ensures states length and last element. That the window is the latest `cap` intervals is in `WindowOfIsLatest`.
- PyInt.FloorDiv: has no ensures of its own. Its bounds are in `FloorDivBounds`.
- PyInt.TruncDiv: has no ensures of its own. Its bounds are in `TruncDivBounds`.

=== FILE: bridge_engine.dfy ===
/**
 * The bridge's bookkeeping: the bar anchor and per-bar buckets of human
 * notes, the per-poll bar boundary step, per-bar generation with 2-bar
 * playback scheduling, and the pulse-scheduled output queue.
 *
 * The clock reading, the transport flag, wall-clock times, the current
 * tempo and the generator are parameters of the steps.
 */
module Bridge {
  import opened Wrappers
  import opened PyInt
  import Clock
  import opened MidiBuffer
  import PromptMidi

  datatype Phase = Human | Model

  /** A message read from the input port. */
  datatype PortMsg =
    | NoteOnIn(note: int, velocity: int)
    | NoteOffIn(note: int, velocity: int)
    | ControlIn(control: int, value: int)
    | OtherIn

  /** The kind of a message of a generated file; `Other` stands for meta and remaining channel messages. */
  datatype FileKind = FileNoteOn | FileNoteOff | FileControl | Other

  /** A message of a generated file with its delta time in ticks. */
  datatype FileMsg = FileMsg(kind: FileKind, time: nat, data: seq<int>)

  datatype MidiFile = MidiFile(ticksPerBeat: int, tracks: seq<seq<FileMsg>>)

  /** A message waiting to be sent once the clock reaches `target`. */
  datatype Scheduled = Scheduled(target: int, msg: FileMsg)

  /** The generator: a prompt track in, a MIDI file or nothing out. */
  type Generator = seq<PromptMidi.TrackEvent> -> Option<MidiFile>

  /** The messages the output forwards: note on, note off and control change. */
  predicate IsChannel(m: FileMsg)
  {
    m.kind != Other
  }

  // ---------------------------------------------------------------------
  // Tick-to-pulse arithmetic

  /** `int((tick / tpq) * 24)`, taken exactly: the whole pulses in `tick` ticks at `tpq` ticks per beat. */
  function TickToPulse(tick: int, tpq: int): int
    requires tpq != 0
  {
    TruncDiv(tick * 24, tpq)
  }

  lemma TickToPulseMonotone(a: int, b: int, tpq: int)
    requires 0 <= a <= b && tpq > 0
    ensures 0 <= TickToPulse(a, tpq) <= TickToPulse(b, tpq)
  {
    DivMonotone(a * 24, b * 24, tpq);
  }

  /** The absolute tick of the last message of `msgs`: the sum of the delta times. */
  function TickSum(msgs: seq<FileMsg>): nat
  {
    if msgs == [] then 0 else TickSum(msgs[..|msgs| - 1]) + msgs[|msgs| - 1].time
  }

  /** A longer prefix never ends at an earlier tick. */
  lemma {:induction false} TickSumMonotone(msgs: seq<FileMsg>, i: nat, j: nat)
    requires i <= j <= |msgs|
    ensures TickSum(msgs[..i]) <= TickSum(msgs[..j])
  {
    if i < j {
      TickSumMonotone(msgs, i, j - 1);
      assert msgs[..j][..j - 1] == msgs[..j - 1];
    }
  }

  /** Each message of a bar is scheduled at `base` plus the pulse of its absolute tick. */
  function BarTargets(msgs: seq<FileMsg>, base: int, tpq: int): (r: seq<Scheduled>)
    requires tpq != 0
    ensures |r| == |msgs|
  {
    if msgs == [] then []
    else
      BarTargets(msgs[..|msgs| - 1], base, tpq)
        + [Scheduled(base + TickToPulse(TickSum(msgs), tpq), msgs[|msgs| - 1])]
  }

  /** Entry `k` of a bar's schedule is message `k`, at the pulse of the tick it ends on. */
  lemma {:induction false} BarTargetsAt(msgs: seq<FileMsg>, base: int, tpq: int, k: nat)
    requires tpq != 0 && k < |msgs|
    ensures BarTargets(msgs, base, tpq)[k] == Scheduled(base + TickToPulse(TickSum(msgs[..k + 1]), tpq), msgs[k])
  {
    var n := |msgs| - 1;
    if k < n {
      assert msgs[..n][..k + 1] == msgs[..k + 1];
      BarTargetsAt(msgs[..n], base, tpq, k);
    } else {
      assert msgs[..k + 1] == msgs;
    }
  }

  /** `r` schedules exactly `msgs`, in order, none before `base`, with targets that never decrease. */
  predicate ScheduledInOrder(r: seq<Scheduled>, msgs: seq<FileMsg>, base: int)
  {
    && |r| == |msgs|
    && (forall i :: 0 <= i < |r| ==> r[i].msg == msgs[i] && r[i].target >= base)
    && (forall i, j :: 0 <= i < j < |r| ==> r[i].target <= r[j].target)
  }

  /** With a positive resolution a bar's messages are scheduled in order, from `base` on. */
  lemma BarTargetsOrdered(msgs: seq<FileMsg>, base: int, tpq: int)
    requires tpq > 0
    ensures ScheduledInOrder(BarTargets(msgs, base, tpq), msgs, base)
  {
    var r := BarTargets(msgs, base, tpq);
    forall i | 0 <= i < |msgs| ensures r[i].msg == msgs[i] && r[i].target >= base {
      BarTargetsAt(msgs, base, tpq, i);
      TickToPulseMonotone(0, TickSum(msgs[..i + 1]), tpq);
    }
    forall i, j | 0 <= i < j < |msgs| ensures r[i].target <= r[j].target {
      BarTargetsAt(msgs, base, tpq, i);
      BarTargetsAt(msgs, base, tpq, j);
      TickSumMonotone(msgs, i + 1, j + 1);
      TickToPulseMonotone(TickSum(msgs[..i + 1]), TickSum(msgs[..j + 1]), tpq);
    }
  }

  /** The 2-bar playback: bar 1 from `start`, bar 2 one bar later, each from tick 0. */
  function TwoBarSchedule(bar1: seq<FileMsg>, bar2: seq<FileMsg>, start: int, pulsesPerBar: int, tpq: int): seq<Scheduled>
    requires tpq != 0
  {
    BarTargets(bar1, start, tpq) + BarTargets(bar2, start + pulsesPerBar, tpq)
  }

  /**
   * With a positive resolution the 2-bar playback schedules every message
   * of bar 1, in order, from `start`, followed by every message of bar 2,
   * in order, from one bar later; within each bar targets never decrease.
   */
  lemma TwoBarScheduleOrdered(bar1: seq<FileMsg>, bar2: seq<FileMsg>, start: int, pulsesPerBar: int, tpq: int)
    requires tpq > 0
    ensures var r := TwoBarSchedule(bar1, bar2, start, pulsesPerBar, tpq);
            |r| == |bar1| + |bar2|
            && ScheduledInOrder(r[..|bar1|], bar1, start)
            && ScheduledInOrder(r[|bar1|..], bar2, start + pulsesPerBar)
  {
    var r1 := BarTargets(bar1, start, tpq);
    var r2 := BarTargets(bar2, start + pulsesPerBar, tpq);
    var r := TwoBarSchedule(bar1, bar2, start, pulsesPerBar, tpq);
    assert r[..|bar1|] == r1 && r[|bar1|..] == r2 by {
      ConcatHalves(r1, r2);
    }
    BarTargetsOrdered(bar1, start, tpq);
    BarTargetsOrdered(bar2, start + pulsesPerBar, tpq);
  }

  lemma ConcatHalves<T>(a: seq<T>, b: seq<T>)
    ensures (a + b)[..|a|] == a && (a + b)[|a|..] == b
  {
  }

  /** One track of a generated file: the tick counter runs over every message, only channel messages are scheduled. */
  function TrackTargets(track: seq<FileMsg>, base: int, tpq: int): seq<Scheduled>
    requires tpq != 0
  {
    if track == [] then []
    else
      var last := track[|track| - 1];
      TrackTargets(track[..|track| - 1], base, tpq)
        + (if IsChannel(last) then [Scheduled(base + TickToPulse(TickSum(track), tpq), last)] else [])
  }

  /** Every track of a generated file, each restarting its tick counter at 0. */
  function FileTargets(tracks: seq<seq<FileMsg>>, base: int, tpq: int): seq<Scheduled>
    requires tpq != 0
  {
    if tracks == [] then []
    else FileTargets(tracks[..|tracks| - 1], base, tpq) + TrackTargets(tracks[|tracks| - 1], base, tpq)
  }

  /** The channel messages of a track, in order. */
  function ChannelMsgs(track: seq<FileMsg>): (r: seq<FileMsg>)
    ensures |r| <= |track|
    ensures forall i :: 0 <= i < |r| ==> IsChannel(r[i]) && r[i] in track
  {
    if track == [] then []
    else
      var last := track[|track| - 1];
      assert forall x :: x in track[..|track| - 1] ==> x in track;
      ChannelMsgs(track[..|track| - 1]) + (if IsChannel(last) then [last] else [])
  }

  /** Every channel message of the track is kept, as often as it occurs, and nothing else. */
  lemma {:induction false} ChannelMsgsCounts(track: seq<FileMsg>)
    ensures forall x :: multiset(ChannelMsgs(track))[x] == if IsChannel(x) then multiset(track)[x] else 0
  {
    if track != [] {
      var pre, last := track[..|track| - 1], track[|track| - 1];
      ChannelMsgsCounts(pre);
      assert track == pre + [last];
    }
  }

  /** The filter keeps the track's order: it distributes over concatenation. */
  lemma {:induction false} ChannelMsgsAppend(a: seq<FileMsg>, b: seq<FileMsg>)
    ensures ChannelMsgs(a + b) == ChannelMsgs(a) + ChannelMsgs(b)
  {
    if b != [] {
      var pre := b[..|b| - 1];
      ChannelMsgsAppend(a, pre);
      assert (a + b)[..|a + b| - 1] == a + pre;
    } else {
      assert a + b == a;
    }
  }

  /** What a generated file leaves for per-bar playback: the channel messages of all tracks, track after track. */
  function BarMessages(tracks: seq<seq<FileMsg>>): seq<FileMsg>
  {
    if tracks == [] then [] else BarMessages(tracks[..|tracks| - 1]) + ChannelMsgs(tracks[|tracks| - 1])
  }

  /**
   * Every channel message of a generated file is scheduled exactly once,
   * in file order, and with a positive resolution none before `base`.
   */
  lemma {:induction false} TrackTargetsCover(track: seq<FileMsg>, base: int, tpq: int)
    requires tpq > 0
    ensures |TrackTargets(track, base, tpq)| == |ChannelMsgs(track)|
    ensures forall i :: 0 <= i < |ChannelMsgs(track)| ==>
              TrackTargets(track, base, tpq)[i].msg == ChannelMsgs(track)[i]
              && TrackTargets(track, base, tpq)[i].target >= base
  {
    if track != [] {
      TrackTargetsCover(track[..|track| - 1], base, tpq);
      TickToPulseMonotone(0, TickSum(track), tpq);
    }
  }

  lemma {:induction false} FileTargetsCover(tracks: seq<seq<FileMsg>>, base: int, tpq: int)
    requires tpq > 0
    ensures |FileTargets(tracks, base, tpq)| == |BarMessages(tracks)|
    ensures forall i :: 0 <= i < |BarMessages(tracks)| ==>
              FileTargets(tracks, base, tpq)[i].msg == BarMessages(tracks)[i]
              && FileTargets(tracks, base, tpq)[i].target >= base
  {
    if tracks != [] {
      var pre := tracks[..|tracks| - 1];
      FileTargetsCover(pre, base, tpq);
      TrackTargetsCover(tracks[|tracks| - 1], base, tpq);
    }
  }

  /** A message is kept from a track exactly when it is a channel message of the track. */
  lemma ChannelMsgsMember(track: seq<FileMsg>, x: FileMsg)
    ensures x in ChannelMsgs(track) <==> IsChannel(x) && x in track
  {
    ChannelMsgsCounts(track);
    assert x in ChannelMsgs(track) <==> multiset(ChannelMsgs(track))[x] > 0;
  }

  /** A message is stored from a file exactly when it is a channel message of one of its tracks. */
  lemma {:induction false} BarMessagesMember(tracks: seq<seq<FileMsg>>, x: FileMsg)
    ensures x in BarMessages(tracks) <==> IsChannel(x) && exists t :: 0 <= t < |tracks| && x in tracks[t]
  {
    if tracks != [] {
      var pre, last := tracks[..|tracks| - 1], tracks[|tracks| - 1];
      BarMessagesMember(pre, x);
      ChannelMsgsMember(last, x);
      assert forall t :: 0 <= t < |pre| ==> tracks[t] == pre[t];
      if IsChannel(x) && (exists t :: 0 <= t < |tracks| && x in tracks[t]) {
        var t :| 0 <= t < |tracks| && x in tracks[t];
        if t < |pre| {
          assert x in BarMessages(pre);
        } else {
          assert x in ChannelMsgs(last);
        }
      }
    }
  }

  /** The stored messages are exactly the channel messages of the file's tracks. */
  lemma BarMessagesChannels(tracks: seq<seq<FileMsg>>)
    ensures forall x :: x in BarMessages(tracks) ==>
              IsChannel(x) && exists t :: 0 <= t < |tracks| && x in tracks[t]
    ensures forall t, x :: 0 <= t < |tracks| && x in tracks[t] && IsChannel(x) ==> x in BarMessages(tracks)
  {
    forall x | x in BarMessages(tracks)
      ensures IsChannel(x) && exists t :: 0 <= t < |tracks| && x in tracks[t]
    {
      BarMessagesMember(tracks, x);
    }
    forall t, x | 0 <= t < |tracks| && x in tracks[t] && IsChannel(x)
      ensures x in BarMessages(tracks)
    {
      BarMessagesMember(tracks, x);
    }
  }

  predicate HasChannel(tracks: seq<seq<FileMsg>>)
  {
    exists t, i :: 0 <= t < |tracks| && 0 <= i < |tracks[t]| && IsChannel(tracks[t][i])
  }

  // ---------------------------------------------------------------------
  // The output queue

  /** The queued messages due at `pulse`, in queue order. */
  function Due(s: seq<Scheduled>, pulse: int): seq<Scheduled>
  {
    if s == [] then []
    else Due(s[..|s| - 1], pulse) + (if s[|s| - 1].target <= pulse then [s[|s| - 1]] else [])
  }

  /** The queued messages not yet due at `pulse`, in queue order. */
  function NotDue(s: seq<Scheduled>, pulse: int): seq<Scheduled>
  {
    if s == [] then []
    else NotDue(s[..|s| - 1], pulse) + (if s[|s| - 1].target > pulse then [s[|s| - 1]] else [])
  }

  /**
   * The drain splits the queue: everything sent is due, everything kept is
   * not, and together they are exactly the old queue.
   */
  lemma {:induction false} DrainPartitions(s: seq<Scheduled>, pulse: int)
    ensures forall i :: 0 <= i < |Due(s, pulse)| ==> Due(s, pulse)[i].target <= pulse
    ensures forall i :: 0 <= i < |NotDue(s, pulse)| ==> NotDue(s, pulse)[i].target > pulse
  {
    if s != [] {
      var pre, x := s[..|s| - 1], s[|s| - 1];
      DrainPartitions(pre, pulse);
      var d, n := Due(pre, pulse), NotDue(pre, pulse);
      assert s == pre + [x];
      if x.target <= pulse {
        assert Due(s, pulse) == d + [x] && NotDue(s, pulse) == n;
        forall i | 0 <= i < |d| + 1 ensures (d + [x])[i].target <= pulse {
          if i < |d| {
            assert (d + [x])[i] == d[i];
          }
        }
      } else {
        assert Due(s, pulse) == d && NotDue(s, pulse) == n + [x];
        forall i | 0 <= i < |n| + 1 ensures (n + [x])[i].target > pulse {
          if i < |n| {
            assert (n + [x])[i] == n[i];
          }
        }
      }
    }
  }

  /** Together the sent and the kept messages are exactly the old queue. */
  lemma {:induction false} DrainPermutes(s: seq<Scheduled>, pulse: int)
    ensures multiset(Due(s, pulse)) + multiset(NotDue(s, pulse)) == multiset(s)
  {
    if s != [] {
      var pre, x := s[..|s| - 1], s[|s| - 1];
      DrainPermutes(pre, pulse);
      assert s == pre + [x];
      SplitSnoc(Due(pre, pulse), NotDue(pre, pulse), pre, x, x.target <= pulse);
    }
  }

  /** Appending one element to a split sequence appends it to exactly one side. */
  lemma SplitSnoc<T>(d: seq<T>, n: seq<T>, pre: seq<T>, x: T, toFirst: bool)
    requires multiset(d) + multiset(n) == multiset(pre)
    ensures multiset(d + (if toFirst then [x] else [])) + multiset(n + (if toFirst then [] else [x]))
            == multiset(pre + [x])
  {
    if toFirst {
      assert multiset(d + [x]) == multiset(d) + multiset{x};
      assert n + [] == n;
    } else {
      assert multiset(n + [x]) == multiset(n) + multiset{x};
      assert d + [] == d;
    }
  }

  /** Delivery is one-shot: draining the kept messages again at the same pulse sends nothing and keeps them all. */
  lemma {:induction false} DrainOnce(s: seq<Scheduled>, pulse: int)
    ensures Due(NotDue(s, pulse), pulse) == []
    ensures NotDue(NotDue(s, pulse), pulse) == NotDue(s, pulse)
  {
    if s != [] {
      var pre, x := s[..|s| - 1], s[|s| - 1];
      DrainOnce(pre, pulse);
      var kept := NotDue(pre, pulse);
      if x.target > pulse {
        assert NotDue(s, pulse) == kept + [x];
        assert (kept + [x])[..|kept|] == kept;
        assert Due(kept + [x], pulse) == Due(kept, pulse);
        assert NotDue(kept + [x], pulse) == NotDue(kept, pulse) + [x];
      } else {
        assert NotDue(s, pulse) == kept;
      }
    }
  }

  /** The partition loop of the drain. */
  method Partition(s: seq<Scheduled>, pulse: int) returns (toSend: seq<Scheduled>, remaining: seq<Scheduled>)
    ensures toSend == Due(s, pulse) && remaining == NotDue(s, pulse)
    ensures multiset(toSend) + multiset(remaining) == multiset(s)
  {
    toSend := [];
    remaining := [];
    for i := 0 to |s|
      invariant toSend == Due(s[..i], pulse) && remaining == NotDue(s[..i], pulse)
    {
      assert s[..i + 1][..i] == s[..i];
      if pulse >= s[i].target {
        toSend := toSend + [s[i]];
      } else {
        remaining := remaining + [s[i]];
      }
    }
    assert s[..|s|] == s;
    DrainPermutes(s, pulse);
  }

  /** A buffered message counts as human activity: a sounding note on or a sustain change. */
  predicate IsHumanActivity(m: TimestampedMidiMsg)
  {
    IsSounding(m) || IsSustain(m)
  }

  /** The scan of `_has_human_activity` over a copy of the buffer. */
  method AnyHumanActivity(msgs: seq<TimestampedMidiMsg>) returns (found: bool)
    ensures found <==> exists i :: 0 <= i < |msgs| && IsHumanActivity(msgs[i])
  {
    for i := 0 to |msgs|
      invariant forall k :: 0 <= k < i ==> !IsHumanActivity(msgs[k])
    {
      if (msgs[i].kind == NoteOn && msgs[i].velocity.Some? && msgs[i].velocity.value > 0)
         || (msgs[i].kind == ControlChange && msgs[i].control == Some(64))
      {
        return true;
      }
    }
    return false;
  }

  /** The pulse at which bar `bar` of a grid anchored at `anchor` ends: one bar length after the previous end. */
  function BarEnd(anchor: int, bar: nat, pulsesPerBar: int): int
  {
    if bar == 0 then anchor + pulsesPerBar else BarEnd(anchor, bar - 1, pulsesPerBar) + pulsesPerBar
  }

  /** Bar `bar` ends `bar + 1` bar lengths after the anchor. */
  lemma {:induction false} BarEndClosedForm(anchor: int, bar: nat, pulsesPerBar: int)
    ensures BarEnd(anchor, bar, pulsesPerBar) == anchor + (bar + 1) * pulsesPerBar
  {
    if bar > 0 {
      BarEndClosedForm(anchor, bar - 1, pulsesPerBar);
      assert (bar + 1) * pulsesPerBar == bar * pulsesPerBar + pulsesPerBar;
    }
  }

  /** A note on at pulse `p` in the bar that is in progress lands in that bar's bucket. */
  lemma BarOfCurrentBar(anchor: int, barIndex: int, pulsesPerBar: int, p: int)
    requires pulsesPerBar > 0
    requires anchor + barIndex * pulsesPerBar <= p < anchor + (barIndex + 1) * pulsesPerBar
    ensures FloorDiv(p - anchor, pulsesPerBar) == barIndex
  {
    assert (barIndex + 1) * pulsesPerBar == barIndex * pulsesPerBar + pulsesPerBar;
    DivisionUnique(p - anchor, pulsesPerBar, barIndex, p - anchor - barIndex * pulsesPerBar);
  }

  // ---------------------------------------------------------------------
  // The bridge

  /** What the input loop adds to the rolling buffer: note ons, note offs and sustain changes. */
  function Recorded(msg: PortMsg, stamp: real, pulse: Option<int>): Option<TimestampedMidiMsg>
  {
    match msg
    case NoteOnIn(note, velocity) => Some(TimestampedMidiMsg(NoteOn, Some(note), Some(velocity), None, None, stamp, pulse))
    case NoteOffIn(note, velocity) => Some(TimestampedMidiMsg(NoteOff, Some(note), Some(velocity), None, None, stamp, pulse))
    case ControlIn(control, value) =>
      if control == 64 then Some(TimestampedMidiMsg(ControlChange, None, None, Some(64), Some(value), stamp, pulse))
      else None
    case OtherIn => None
  }

  /**
   * Appends a note to the bucket of bar `bar`, creating the bucket if it
   * is missing; no other bucket changes.
   */
  function AddToBar(buckets: map<int, seq<TimestampedMidiMsg>>, bar: int, m: TimestampedMidiMsg)
    : (r: map<int, seq<TimestampedMidiMsg>>)
    ensures r.Keys == buckets.Keys + {bar}
    ensures r[bar] == (if bar in buckets then buckets[bar] else []) + [m]
    ensures forall b :: b in buckets && b != bar ==> r[b] == buckets[b]
  {
    buckets[bar := (if bar in buckets then buckets[bar] else []) + [m]]
  }

  /**
   * What a bar boundary stores for bar `bar`: nothing when the bar has no
   * human notes or the model returns nothing, otherwise the channel
   * messages of the model's reply.
   */
  function Continuation(buckets: map<int, seq<TimestampedMidiMsg>>, bar: int, bpm: Option<real>,
                        ticksPerBeat: int, now: real, generate: Generator): Option<seq<FileMsg>>
  {
    var events := if bar in buckets then buckets[bar] else [];
    if events == [] then None
    else
      var generated := generate(PromptMidi.TrackOf(events, 0.0, bpm, ticksPerBeat, now));
      if generated.None? then None else Some(BarMessages(generated.value.tracks))
  }

  /**
   * A bar with no bucket or an empty one stores nothing, and so does a bar
   * the model does not answer; an answered bar with human notes stores the
   * channel messages of the reply, every one of them and nothing else.
   */
  lemma ContinuationCases(buckets: map<int, seq<TimestampedMidiMsg>>, bar: int, bpm: Option<real>,
                          ticksPerBeat: int, now: real, generate: Generator)
    ensures bar !in buckets || buckets[bar] == [] ==>
              Continuation(buckets, bar, bpm, ticksPerBeat, now, generate).None?
    ensures bar in buckets && buckets[bar] != [] ==>
              (Continuation(buckets, bar, bpm, ticksPerBeat, now, generate).None?
               <==> generate(PromptMidi.TrackOf(buckets[bar], 0.0, bpm, ticksPerBeat, now)).None?)
    ensures Continuation(buckets, bar, bpm, ticksPerBeat, now, generate).Some? ==>
              var reply := generate(PromptMidi.TrackOf(buckets[bar], 0.0, bpm, ticksPerBeat, now)).value;
              var stored := Continuation(buckets, bar, bpm, ticksPerBeat, now, generate).value;
              (forall x :: x in stored ==> IsChannel(x) && exists t :: 0 <= t < |reply.tracks| && x in reply.tracks[t])
              && (forall t, x :: 0 <= t < |reply.tracks| && x in reply.tracks[t] && IsChannel(x) ==> x in stored)
  {
    if bar in buckets && buckets[bar] != [] {
      var reply := generate(PromptMidi.TrackOf(buckets[bar], 0.0, bpm, ticksPerBeat, now));
      if reply.Some? {
        BarMessagesChannels(reply.value.tracks);
      }
    }
  }

  /** A stored odd bar whose predecessor is already stored completes a pair for playback. */
  predicate PairCompleted(stored: Option<seq<FileMsg>>, bar: int, queue: map<int, seq<FileMsg>>)
  {
    stored.Some? && bar % 2 == 1 && bar - 1 in queue
  }

  class AbletonBridge {
    /** Whether a clock input (and so a pulse clock) is configured. */
    const hasClock: bool
    const measures: int
    const beatsPerBar: int
    const pulsesPerBar: int
    const pulsesPerBlock: int
    const ticksPerBeat: int
    const midiBuffer: RollingMidiBuffer

    var phase: Phase
    var anchorPulse: Option<int>
    var barIndex: int
    var nextBarBoundaryPulse: Option<int>
    var modelEndPulse: Option<int>
    var humanBarBuffers: map<int, seq<TimestampedMidiMsg>>
    var generatedBarQueue: map<int, seq<FileMsg>>
    var scheduledMessages: seq<Scheduled>
    var lastScheduledBar: Option<int>

    /**
     * The bar grid: bars have a length, and once the anchor is set the next
     * boundary is the end of bar `barIndex`.
     */
    ghost predicate Valid()
      reads this
    {
      && pulsesPerBar != 0
      && barIndex >= 0
      && (anchorPulse.Some? <==> nextBarBoundaryPulse.Some?)
      && (anchorPulse.None? ==> barIndex == 0)
      && (anchorPulse.Some? ==>
            hasClock && nextBarBoundaryPulse.value == BarEnd(anchorPulse.value, barIndex, pulsesPerBar))
    }

    constructor (hasClock: bool, measures: int, beatsPerBar: int, ticksPerBeat: int, midiBuffer: RollingMidiBuffer)
      requires beatsPerBar != 0
      ensures Valid()
      ensures this.hasClock == hasClock && this.measures == measures && this.beatsPerBar == beatsPerBar
      ensures pulsesPerBar == Clock.PulsesPerBar(beatsPerBar)
      ensures pulsesPerBlock == Clock.PulsesPerBlock(measures, beatsPerBar)
      ensures this.ticksPerBeat == ticksPerBeat && this.midiBuffer == midiBuffer
      ensures phase == Human && anchorPulse.None? && barIndex == 0 && nextBarBoundaryPulse.None?
      ensures modelEndPulse.None? && lastScheduledBar.None?
      ensures humanBarBuffers == map[] && generatedBarQueue == map[] && scheduledMessages == []
    {
      this.hasClock := hasClock;
      this.measures := measures;
      this.beatsPerBar := beatsPerBar;
      this.pulsesPerBar := Clock.PulsesPerBar(beatsPerBar);
      this.pulsesPerBlock := Clock.PulsesPerBlock(measures, beatsPerBar);
      this.ticksPerBeat := ticksPerBeat;
      this.midiBuffer := midiBuffer;
      phase := Human;
      anchorPulse := None;
      barIndex := 0;
      nextBarBoundaryPulse := None;
      modelEndPulse := None;
      humanBarBuffers := map[];
      generatedBarQueue := map[];
      scheduledMessages := [];
      lastScheduledBar := None;
    }

    /**
     * The body of the input loop for one message, read when the clock
     * shows `pulseCount` and `clockRunning`; `stamp` and `now` are the
     * buffer's two clock readings.
     */
    method HandleInput(msg: PortMsg, pulseCount: int, clockRunning: bool, stamp: real, now: real)
      requires Valid()
      modifies this, midiBuffer
      ensures Valid()
      ensures var recorded := Recorded(msg, stamp, if hasClock then Some(pulseCount) else None);
              if recorded.Some?
              then midiBuffer.buffer == Unexpired(old(midiBuffer.buffer) + [recorded.value], now - midiBuffer.windowSeconds)
              else midiBuffer.buffer == old(midiBuffer.buffer)
      ensures if msg.NoteOnIn? && old(anchorPulse).None? && hasClock && clockRunning
              then anchorPulse == Some(pulseCount) && barIndex == 0
                   && nextBarBoundaryPulse == Some(pulseCount + pulsesPerBar)
              else anchorPulse == old(anchorPulse) && barIndex == old(barIndex)
                   && nextBarBoundaryPulse == old(nextBarBoundaryPulse)
      ensures if msg.NoteOnIn? && anchorPulse.Some? && hasClock
              then humanBarBuffers == AddToBar(old(humanBarBuffers), FloorDiv(pulseCount - anchorPulse.value, pulsesPerBar),
                     Recorded(msg, stamp, Some(pulseCount)).value)
              else humanBarBuffers == old(humanBarBuffers)
      ensures phase == old(phase) && modelEndPulse == old(modelEndPulse)
      ensures generatedBarQueue == old(generatedBarQueue) && scheduledMessages == old(scheduledMessages)
      ensures lastScheduledBar == old(lastScheduledBar)
    {
      var pulse: Option<int> := if hasClock then Some(pulseCount) else None;
      match msg
      case NoteOnIn(note, velocity) =>
        HandleNoteOn(note, velocity, pulse, clockRunning, stamp, now);
      case NoteOffIn(note, velocity) =>
        midiBuffer.AddMessage(NoteOff, Some(note), Some(velocity), None, None, pulse, stamp, now);
      case ControlIn(control, value) =>
        if control == 64 {
          midiBuffer.AddMessage(ControlChange, None, None, Some(64), Some(value), pulse, stamp, now);
        }
      case OtherIn =>
    }

    /** The note-on branch of the input loop: set the anchor once, file the note under its bar, record it. */
    method HandleNoteOn(note: int, velocity: int, pulse: Option<int>, clockRunning: bool, stamp: real, now: real)
      requires Valid()
      requires pulse.Some? <==> hasClock
      modifies this, midiBuffer
      ensures Valid()
      ensures var m := TimestampedMidiMsg(NoteOn, Some(note), Some(velocity), None, None, stamp, pulse);
              midiBuffer.buffer == Unexpired(old(midiBuffer.buffer) + [m], now - midiBuffer.windowSeconds)
      ensures if old(anchorPulse).None? && hasClock && clockRunning
              then anchorPulse == pulse && barIndex == 0
                   && nextBarBoundaryPulse == Some(pulse.value + pulsesPerBar)
              else anchorPulse == old(anchorPulse) && barIndex == old(barIndex)
                   && nextBarBoundaryPulse == old(nextBarBoundaryPulse)
      ensures if anchorPulse.Some? && pulse.Some?
              then humanBarBuffers == AddToBar(old(humanBarBuffers), FloorDiv(pulse.value - anchorPulse.value, pulsesPerBar),
                     TimestampedMidiMsg(NoteOn, Some(note), Some(velocity), None, None, stamp, pulse))
              else humanBarBuffers == old(humanBarBuffers)
      ensures phase == old(phase) && modelEndPulse == old(modelEndPulse)
      ensures generatedBarQueue == old(generatedBarQueue) && scheduledMessages == old(scheduledMessages)
      ensures lastScheduledBar == old(lastScheduledBar)
    {
      if anchorPulse.None? && hasClock && clockRunning {
        anchorPulse := pulse;
        nextBarBoundaryPulse := Some(pulse.value + pulsesPerBar);
        barIndex := 0;
      }
      var buckets := humanBarBuffers;
      var bar: Option<int> := None;
      if anchorPulse.Some? && pulse.Some? {
        var b := FloorDiv(pulse.value - anchorPulse.value, pulsesPerBar);
        if b !in buckets {
          buckets := buckets[b := []];
        }
        bar := Some(b);
      }
      var m := TimestampedMidiMsg(NoteOn, Some(note), Some(velocity), None, None, stamp, pulse);
      midiBuffer.AddMessage(NoteOn, Some(note), Some(velocity), None, None, pulse, stamp, now);
      if bar.Some? {
        buckets := buckets[bar.value := buckets[bar.value] + [m]];
        assert buckets == AddToBar(humanBarBuffers, bar.value, m);
      }
      humanBarBuffers := buckets;
    }

    /**
     * The body of the generation loop for one poll at `currentPulse`: at
     * most one bar boundary, handled for the old bar index.
     */
    method BoundaryStep(currentPulse: int, now: real, bpm: Option<real>, generate: Generator)
      returns (finished: Option<int>)
      requires Valid()
      modifies this
      ensures Valid()
      ensures finished.Some? <==> hasClock && old(nextBarBoundaryPulse).Some?
                                  && currentPulse >= old(nextBarBoundaryPulse).value
      ensures finished.Some? ==> finished.value == old(barIndex) && barIndex == old(barIndex) + 1
                                 && nextBarBoundaryPulse.value == old(nextBarBoundaryPulse).value + pulsesPerBar
      ensures finished.Some? &&
              Continuation(old(humanBarBuffers), old(barIndex), bpm, ticksPerBeat, now, generate).None? ==>
                generatedBarQueue == old(generatedBarQueue)
      ensures finished.Some? &&
              Continuation(old(humanBarBuffers), old(barIndex), bpm, ticksPerBeat, now, generate).Some? ==>
                generatedBarQueue == old(generatedBarQueue)[old(barIndex) :=
                  Continuation(old(humanBarBuffers), old(barIndex), bpm, ticksPerBeat, now, generate).value]
      ensures finished.Some? &&
              !PairCompleted(Continuation(old(humanBarBuffers), old(barIndex), bpm, ticksPerBeat, now, generate),
                             old(barIndex), old(generatedBarQueue)) ==>
                scheduledMessages == old(scheduledMessages) && lastScheduledBar == old(lastScheduledBar)
      ensures finished.Some? &&
              PairCompleted(Continuation(old(humanBarBuffers), old(barIndex), bpm, ticksPerBeat, now, generate),
                            old(barIndex), old(generatedBarQueue)) ==>
                old(barIndex) - 1 in generatedBarQueue && old(barIndex) in generatedBarQueue
                && lastScheduledBar == Some(old(barIndex))
                && scheduledMessages == old(scheduledMessages) + PairSchedule(generatedBarQueue, anchorPulse, old(barIndex))
      ensures finished.None? ==> barIndex == old(barIndex) && nextBarBoundaryPulse == old(nextBarBoundaryPulse)
                                 && generatedBarQueue == old(generatedBarQueue)
                                 && scheduledMessages == old(scheduledMessages)
                                 && lastScheduledBar == old(lastScheduledBar)
      ensures anchorPulse == old(anchorPulse) && humanBarBuffers == old(humanBarBuffers)
      ensures phase == old(phase) && modelEndPulse == old(modelEndPulse)
    {
      finished := None;
      if hasClock && nextBarBoundaryPulse.Some? {
        if currentPulse >= nextBarBoundaryPulse.value {
          var finishedBar := barIndex;
          OnBarBoundary(finishedBar, now, bpm, generate);
          AdvanceBar();
          finished := Some(finishedBar);
        }
      }
    }

    /** Moves the grid on by one bar: the next boundary is one bar length later. */
    method AdvanceBar()
      requires Valid() && nextBarBoundaryPulse.Some?
      modifies this
      ensures Valid()
      ensures barIndex == old(barIndex) + 1
      ensures nextBarBoundaryPulse == Some(old(nextBarBoundaryPulse).value + pulsesPerBar)
      ensures anchorPulse == old(anchorPulse) && humanBarBuffers == old(humanBarBuffers)
      ensures generatedBarQueue == old(generatedBarQueue) && scheduledMessages == old(scheduledMessages)
      ensures lastScheduledBar == old(lastScheduledBar)
      ensures phase == old(phase) && modelEndPulse == old(modelEndPulse)
    {
      barIndex := barIndex + 1;
      nextBarBoundaryPulse := Some(nextBarBoundaryPulse.value + pulsesPerBar);
    }

    /**
     * `_on_bar_boundary`: a bar with human notes is sent as a prompt; the
     * model's reply is stored and, when it completes a pair, scheduled.
     */
    method OnBarBoundary(finishedBar: int, now: real, bpm: Option<real>, generate: Generator)
      requires Valid()
      modifies this
      ensures Valid()
      ensures Continuation(old(humanBarBuffers), finishedBar, bpm, ticksPerBeat, now, generate).None? ==>
                generatedBarQueue == old(generatedBarQueue)
      ensures Continuation(old(humanBarBuffers), finishedBar, bpm, ticksPerBeat, now, generate).Some? ==>
                generatedBarQueue == old(generatedBarQueue)[finishedBar :=
                  Continuation(old(humanBarBuffers), finishedBar, bpm, ticksPerBeat, now, generate).value]
      ensures !PairCompleted(Continuation(old(humanBarBuffers), finishedBar, bpm, ticksPerBeat, now, generate),
                             finishedBar, old(generatedBarQueue)) ==>
                scheduledMessages == old(scheduledMessages) && lastScheduledBar == old(lastScheduledBar)
      ensures PairCompleted(Continuation(old(humanBarBuffers), finishedBar, bpm, ticksPerBeat, now, generate),
                            finishedBar, old(generatedBarQueue)) ==>
                lastScheduledBar == Some(finishedBar)
                && scheduledMessages == old(scheduledMessages) + PairSchedule(generatedBarQueue, anchorPulse, finishedBar)
      ensures anchorPulse == old(anchorPulse) && barIndex == old(barIndex)
      ensures nextBarBoundaryPulse == old(nextBarBoundaryPulse) && humanBarBuffers == old(humanBarBuffers)
      ensures phase == old(phase) && modelEndPulse == old(modelEndPulse)
    {
      var stored := GenerateFromBar(humanBarBuffers, finishedBar, bpm, ticksPerBeat, now, generate);
      StoreGeneratedBar(finishedBar, stored);
    }

    /**
     * The second half of `_on_bar_boundary`: `stored` is the model's reply
     * for `finishedBar`, or nothing.
     */
    method StoreGeneratedBar(finishedBar: int, stored: Option<seq<FileMsg>>)
      requires Valid()
      modifies this
      ensures Valid()
      ensures stored.None? ==> generatedBarQueue == old(generatedBarQueue)
      ensures stored.Some? ==> generatedBarQueue == old(generatedBarQueue)[finishedBar := stored.value]
      ensures !PairCompleted(stored, finishedBar, old(generatedBarQueue)) ==>
                scheduledMessages == old(scheduledMessages) && lastScheduledBar == old(lastScheduledBar)
      ensures PairCompleted(stored, finishedBar, old(generatedBarQueue)) ==>
                lastScheduledBar == Some(finishedBar)
                && scheduledMessages == old(scheduledMessages) + PairSchedule(generatedBarQueue, anchorPulse, finishedBar)
      ensures anchorPulse == old(anchorPulse) && barIndex == old(barIndex)
      ensures nextBarBoundaryPulse == old(nextBarBoundaryPulse) && humanBarBuffers == old(humanBarBuffers)
      ensures phase == old(phase) && modelEndPulse == old(modelEndPulse)
    {
      if stored.None? {
        return;
      }
      generatedBarQueue := generatedBarQueue[finishedBar := stored.value];
      if finishedBar % 2 == 1 && finishedBar - 1 in generatedBarQueue && finishedBar in generatedBarQueue {
        Schedule2BarPlayback(finishedBar - 1, finishedBar);
        lastScheduledBar := Some(finishedBar);
      }
    }

    /**
     * What the 2-bar playback queues once bar `bar2` completes a stored pair:
     * nothing when either bar is missing, or without an anchor or a resolution.
     */
    ghost function PairSchedule(queue: map<int, seq<FileMsg>>, anchor: Option<int>, bar2: int): seq<Scheduled>
    {
      if bar2 - 1 !in queue || bar2 !in queue || anchor.None? || ticksPerBeat == 0 then []
      else TwoBarSchedule(queue[bar2 - 1], queue[bar2],
                          anchor.value + (bar2 + 1) * pulsesPerBar, pulsesPerBar, ticksPerBeat)
    }

    /**
     * `_schedule_2bar_playback`: appends both bars' messages after what is
     * queued, starting at the boundary that ends `bar2`. A missing bar, a
     * missing anchor or a zero resolution (the division fails) leaves the
     * queue as it was.
     */
    method Schedule2BarPlayback(bar1: int, bar2: int)
      requires Valid()
      modifies this
      ensures Valid()
      ensures bar1 !in generatedBarQueue || bar2 !in generatedBarQueue ==> scheduledMessages == old(scheduledMessages)
      ensures bar1 == bar2 - 1 && bar1 in generatedBarQueue && bar2 in generatedBarQueue ==>
                scheduledMessages == old(scheduledMessages) + PairSchedule(generatedBarQueue, anchorPulse, bar2)
      ensures generatedBarQueue == old(generatedBarQueue) && lastScheduledBar == old(lastScheduledBar)
      ensures anchorPulse == old(anchorPulse) && barIndex == old(barIndex)
      ensures nextBarBoundaryPulse == old(nextBarBoundaryPulse) && humanBarBuffers == old(humanBarBuffers)
      ensures phase == old(phase) && modelEndPulse == old(modelEndPulse)
    {
      if bar1 !in generatedBarQueue || bar2 !in generatedBarQueue {
        return;
      }
      if anchorPulse.None? || ticksPerBeat == 0 {
        return;
      }
      var startPulse := anchorPulse.value + (bar2 + 1) * pulsesPerBar;
      var first := ScheduleBar(generatedBarQueue[bar1], startPulse, ticksPerBeat);
      var second := ScheduleBar(generatedBarQueue[bar2], startPulse + pulsesPerBar, ticksPerBeat);
      scheduledMessages := scheduledMessages + (first + second);
    }

    /**
     * `_schedule_generated_midi` for a parsed file: channel messages are
     * queued at `boundaryPulse` plus the pulse of their tick within their
     * track, and playback is to end one block later.
     */
    method ScheduleGeneratedMidi(file: MidiFile, boundaryPulse: int)
      requires Valid()
      modifies this
      ensures Valid()
      ensures var tpq := if file.ticksPerBeat != 0 then file.ticksPerBeat else ticksPerBeat;
              if tpq == 0 && HasChannel(file.tracks) then
                scheduledMessages == old(scheduledMessages) && modelEndPulse == old(modelEndPulse)
              else
                scheduledMessages == old(scheduledMessages)
                  + (if tpq == 0 then [] else FileTargets(file.tracks, boundaryPulse, tpq))
                && modelEndPulse == (if hasClock then Some(boundaryPulse + pulsesPerBlock) else old(modelEndPulse))
      ensures generatedBarQueue == old(generatedBarQueue) && lastScheduledBar == old(lastScheduledBar)
      ensures anchorPulse == old(anchorPulse) && barIndex == old(barIndex)
      ensures nextBarBoundaryPulse == old(nextBarBoundaryPulse) && humanBarBuffers == old(humanBarBuffers)
      ensures phase == old(phase)
    {
      var tpq := if file.ticksPerBeat != 0 then file.ticksPerBeat else ticksPerBeat;
      if tpq == 0 && HasChannel(file.tracks) {
        return;
      }
      var messages: seq<Scheduled> := [];
      if tpq != 0 {
        messages := ScheduleFile(file.tracks, boundaryPulse, tpq);
      }
      scheduledMessages := scheduledMessages + messages;
      if hasClock {
        modelEndPulse := Some(boundaryPulse + pulsesPerBlock);
      }
    }

    /**
     * `_service_scheduled_messages` at `currentPulse`: returns the messages
     * sent, keeps the others, and hands control back to the human once the
     * model's playback has ended.
     */
    method ServiceScheduledMessages(currentPulse: int) returns (sent: seq<Scheduled>)
      requires Valid()
      modifies this
      ensures Valid()
      ensures !hasClock ==> sent == [] && scheduledMessages == old(scheduledMessages)
                            && phase == old(phase) && modelEndPulse == old(modelEndPulse)
      ensures hasClock ==> sent == Due(old(scheduledMessages), currentPulse)
                           && scheduledMessages == NotDue(old(scheduledMessages), currentPulse)
      ensures hasClock && old(modelEndPulse).Some? && currentPulse >= old(modelEndPulse).value ==>
                phase == Human && modelEndPulse.None?
      ensures !(hasClock && old(modelEndPulse).Some? && currentPulse >= old(modelEndPulse).value) ==>
                phase == old(phase) && modelEndPulse == old(modelEndPulse)
      ensures generatedBarQueue == old(generatedBarQueue) && lastScheduledBar == old(lastScheduledBar)
      ensures anchorPulse == old(anchorPulse) && barIndex == old(barIndex)
      ensures nextBarBoundaryPulse == old(nextBarBoundaryPulse) && humanBarBuffers == old(humanBarBuffers)
    {
      if !hasClock {
        return [];
      }
      var remaining;
      sent, remaining := Partition(scheduledMessages, currentPulse);
      scheduledMessages := remaining;
      if modelEndPulse.Some? && currentPulse >= modelEndPulse.value {
        phase := Human;
        modelEndPulse := None;
      }
    }

    /** `_has_human_activity`: reads (and so trims) the rolling buffer and scans what is left. */
    method HasHumanActivity(now: real) returns (active: bool)
      modifies midiBuffer
      ensures midiBuffer.buffer == Unexpired(old(midiBuffer.buffer), now - midiBuffer.windowSeconds)
      ensures active <==> exists i :: 0 <= i < |midiBuffer.buffer| && IsHumanActivity(midiBuffer.buffer[i])
    {
      var messages := midiBuffer.GetMessages(now);
      active := AnyHumanActivity(messages);
    }
  }

  /**
   * The prompt-and-generate half of a bar boundary: a bar without a bucket
   * or with an empty one is skipped, otherwise its notes become the prompt.
   */
  method GenerateFromBar(buckets: map<int, seq<TimestampedMidiMsg>>, bar: int, bpm: Option<real>,
                         ticksPerBeat: int, now: real, generate: Generator)
    returns (stored: Option<seq<FileMsg>>)
    ensures stored == Continuation(buckets, bar, bpm, ticksPerBeat, now, generate)
    ensures bar !in buckets || buckets[bar] == [] ==> stored.None?
    ensures bar in buckets && buckets[bar] != [] ==>
              (stored.None? <==> generate(PromptMidi.TrackOf(buckets[bar], 0.0, bpm, ticksPerBeat, now)).None?)
    ensures stored.Some? ==>
              var reply := generate(PromptMidi.TrackOf(buckets[bar], 0.0, bpm, ticksPerBeat, now)).value;
              (forall x :: x in stored.value ==> IsChannel(x) && exists t :: 0 <= t < |reply.tracks| && x in reply.tracks[t])
              && (forall t, x :: 0 <= t < |reply.tracks| && x in reply.tracks[t] && IsChannel(x) ==> x in stored.value)
  {
    if bar !in buckets {
      return None;
    }
    var humanEvents := buckets[bar];
    if humanEvents == [] {
      return None;
    }
    var prompt := PromptMidi.BufferToTrack(humanEvents, 0.0, bpm, ticksPerBeat, now);
    var generated := generate(prompt);
    if generated.None? {
      return None;
    }
    stored := Some(BarMessages(generated.value.tracks));
    ContinuationCases(buckets, bar, bpm, ticksPerBeat, now, generate);
  }

  /** The loop that schedules one bar's messages from `base`. */
  method ScheduleBar(msgs: seq<FileMsg>, base: int, tpq: int) returns (scheduled: seq<Scheduled>)
    requires tpq != 0
    ensures scheduled == BarTargets(msgs, base, tpq)
  {
    scheduled := [];
    var absTick := 0;
    for i := 0 to |msgs|
      invariant scheduled == BarTargets(msgs[..i], base, tpq)
      invariant absTick == TickSum(msgs[..i])
    {
      assert msgs[..i + 1][..i] == msgs[..i];
      absTick := absTick + msgs[i].time;
      var pulseDelta := TickToPulse(absTick, tpq);
      scheduled := scheduled + [Scheduled(base + pulseDelta, msgs[i])];
    }
    assert msgs[..|msgs|] == msgs;
  }

  /** The nested loop over the tracks of a generated file. */
  method ScheduleFile(tracks: seq<seq<FileMsg>>, base: int, tpq: int) returns (messages: seq<Scheduled>)
    requires tpq != 0
    ensures messages == FileTargets(tracks, base, tpq)
  {
    messages := [];
    for t := 0 to |tracks|
      invariant messages == FileTargets(tracks[..t], base, tpq)
    {
      assert tracks[..t + 1][..t] == tracks[..t];
      var track := tracks[t];
      ghost var done := messages;
      var absTick := 0;
      for j := 0 to |track|
        invariant messages == done + TrackTargets(track[..j], base, tpq)
        invariant absTick == TickSum(track[..j])
      {
        assert track[..j + 1][..j] == track[..j];
        absTick := absTick + track[j].time;
        if IsChannel(track[j]) {
          messages := messages + [Scheduled(base + TickToPulse(absTick, tpq), track[j])];
        }
      }
      assert track[..|track|] == track;
    }
    assert tracks[..|tracks|] == tracks;
  }
}

=== FILE: clock_grid.dfy ===
/**
 * The pulse clock: decodes MIDI real-time messages (24 pulses per quarter
 * note) into a pulse counter and a transport flag, and reports a block
 * boundary whenever the counter reaches a multiple of the block length
 * while the transport runs.
 */
module Clock {
  import opened Wrappers
  import Ports

  /** MIDI clock pulses per quarter note. */
  const PPQN: int := 24

  /** The message types the clock port delivers (mido's `msg.type`). */
  datatype ClockMsg = Start | Continue | Stop | ClockTick | OtherMsg

  /** A registered boundary callback, known by an identifier. */
  type Callback = nat

  function PulsesPerBar(beatsPerBar: int): int
  {
    beatsPerBar * PPQN
  }

  /** `max(1, measures * pulses_per_bar)`: a block is never shorter than one pulse. */
  function PulsesPerBlock(measures: int, beatsPerBar: int): (r: int)
    ensures r >= 1 && r >= measures * PulsesPerBar(beatsPerBar)
    ensures r == 1 || r == measures * beatsPerBar * PPQN
  {
    if measures * PulsesPerBar(beatsPerBar) >= 1 then measures * PulsesPerBar(beatsPerBar) else 1
  }

  /** The table of time signatures and block lengths the project's timing test lists. */
  lemma MeasureTable()
    ensures PulsesPerBlock(1, 4) == 96 && PulsesPerBlock(2, 4) == 192
    ensures PulsesPerBlock(3, 4) == 288 && PulsesPerBlock(4, 4) == 384
    ensures PulsesPerBlock(1, 3) == 72 && PulsesPerBlock(4, 3) == 288
    ensures PulsesPerBlock(8, 4) == 768
  {
  }

  /** The transport part of the clock state, as a value. */
  datatype Transport = Transport(running: bool, pulses: int, lastTime: Option<real>)

  /** The effect of one clock-port message received at time `now`. */
  function Step(t: Transport, msg: ClockMsg, now: real): (r: Transport)
    ensures msg != Start ==> r.pulses >= t.pulses
    ensures msg == Start ==> r.pulses == 0 && r.running && r.lastTime == None
    ensures msg == ClockTick ==> r.pulses == t.pulses + 1 && r.running == t.running
    ensures msg != ClockTick && msg != Start ==> r.pulses == t.pulses && r.lastTime == t.lastTime
    ensures msg == Stop ==> !r.running
    ensures msg == Continue ==> r.running
    ensures msg == ClockTick ==> r.lastTime == Some(now)
    ensures msg == OtherMsg ==> r == t
  {
    match msg
    case Start => Transport(true, 0, None)
    case Continue => t.(running := true)
    case Stop => t.(running := false)
    case ClockTick => Transport(t.running, t.pulses + 1, Some(now))
    case OtherMsg => t
  }

  /** The boundary pulse reported for one message, if any: only a tick can report one. */
  function Report(t: Transport, msg: ClockMsg, now: real, block: int): (b: Option<int>)
    requires block >= 1
    ensures b.Some? <==> msg == ClockTick && t.running && (t.pulses + 1) % block == 0
    ensures b.Some? ==> b.value == Step(t, msg, now).pulses
  {
    if msg == ClockTick then
      var r := Step(t, msg, now);
      if r.running && r.pulses % block == 0 then Some(r.pulses) else None
    else None
  }

  /** A clock-port message together with the time it was handled. */
  datatype Timed = Timed(msg: ClockMsg, at: real)

  /** The transport after handling a whole stream of messages. */
  function Run(t: Transport, evs: seq<Timed>): Transport
  {
    if evs == [] then t
    else Step(Run(t, evs[..|evs| - 1]), evs[|evs| - 1].msg, evs[|evs| - 1].at)
  }

  /** Every boundary pulse reported while handling a stream, in order. */
  function Reports(t: Transport, evs: seq<Timed>, block: int): seq<int>
    requires block >= 1
  {
    if evs == [] then []
    else
      var last := evs[|evs| - 1];
      var before := Run(t, evs[..|evs| - 1]);
      Reports(t, evs[..|evs| - 1], block)
        + match Report(before, last.msg, last.at, block) case Some(p) => [p] case None => []
  }

  predicate HasStart(evs: seq<Timed>)
  {
    exists i :: 0 <= i < |evs| && evs[i].msg == Start
  }

  /** The number of ticks after the last Start (after the beginning when there is none). */
  function TicksSinceStart(evs: seq<Timed>): nat
  {
    if evs == [] then 0
    else if evs[|evs| - 1].msg == Start then 0
    else TicksSinceStart(evs[..|evs| - 1]) + (if evs[|evs| - 1].msg == ClockTick then 1 else 0)
  }

  /**
   * The counter counts every tick, running or not, and only Start resets it:
   * after a stream it equals the ticks since the last Start, added to the
   * initial count when the stream has no Start.
   */
  lemma {:induction false} RunPulses(t: Transport, evs: seq<Timed>)
    ensures Run(t, evs).pulses ==
              (if HasStart(evs) then 0 else t.pulses) + TicksSinceStart(evs)
  {
    if evs != [] {
      var pre := evs[..|evs| - 1];
      RunPulses(t, pre);
      assert forall i :: 0 <= i < |pre| ==> pre[i] == evs[i];
      if evs[|evs| - 1].msg != Start {
        assert HasStart(evs) == HasStart(pre);
      }
    }
  }

  predicate AllTicks(evs: seq<Timed>)
  {
    forall i :: 0 <= i < |evs| ==> evs[i].msg == ClockTick
  }

  /**
   * After a Start, a stream of n ticks reports exactly the multiples of the
   * block length up to n, each once and in increasing order.
   */
  lemma {:induction false} RunningBoundaries(t: Transport, evs: seq<Timed>, block: int)
    requires block >= 1 && t.running && t.pulses == 0 && AllTicks(evs)
    ensures Run(t, evs).running && Run(t, evs).pulses == |evs|
    ensures forall k :: k in Reports(t, evs, block) <==> 1 <= k <= |evs| && k % block == 0
    ensures forall i, j :: 0 <= i < j < |Reports(t, evs, block)| ==>
              Reports(t, evs, block)[i] < Reports(t, evs, block)[j]
  {
    if evs != [] {
      var pre := evs[..|evs| - 1];
      assert AllTicks(pre) by {
        forall i | 0 <= i < |pre| ensures pre[i].msg == ClockTick { assert pre[i] == evs[i]; }
      }
      RunningBoundaries(t, pre, block);
      var n := |evs|;
      var before := Run(t, pre);
      assert before.running && before.pulses == n - 1;
      var rep := Report(before, ClockTick, evs[n - 1].at, block);
      assert rep == if n % block == 0 then Some(n) else None;
      var tail: seq<int> := if n % block == 0 then [n] else [];
      var r := Reports(t, pre, block);
      assert Reports(t, evs, block) == r + tail;
      forall i | 0 <= i < |r| ensures r[i] < n {
        assert r[i] in r;
      }
    }
  }

  /** While the transport is stopped, ticks are still counted but no boundary is reported. */
  lemma {:induction false} StoppedTicksSilent(t: Transport, evs: seq<Timed>, block: int)
    requires block >= 1 && !t.running && AllTicks(evs)
    ensures !Run(t, evs).running && Run(t, evs).pulses == t.pulses + |evs|
    ensures Reports(t, evs, block) == []
  {
    if evs != [] {
      var pre := evs[..|evs| - 1];
      assert AllTicks(pre) by {
        forall i | 0 <= i < |pre| ensures pre[i].msg == ClockTick { assert pre[i] == evs[i]; }
      }
      StoppedTicksSilent(t, pre, block);
    }
  }

  class ClockGrid {
    const clockPortName: string
    const measures: int
    const beatsPerBar: int
    const pulsesPerBar: int
    const pulsesPerBlock: int

    var isRunning: bool
    var pulseCount: int
    var lastClockTime: Option<real>
    var boundaryCallbacks: seq<Callback>

    ghost predicate Valid()
      reads this
    {
      pulsesPerBar == PulsesPerBar(beatsPerBar)
      && pulsesPerBlock == PulsesPerBlock(measures, beatsPerBar)
    }

    /** The transport fields as a value. */
    ghost function State(): Transport
      reads this
    {
      Transport(isRunning, pulseCount, lastClockTime)
    }

    constructor (clockPortName: string, measures: int, beatsPerBar: int)
      ensures Valid()
      ensures this.clockPortName == clockPortName && this.measures == measures
      ensures this.beatsPerBar == beatsPerBar
      ensures State() == Transport(false, 0, None) && boundaryCallbacks == []
    {
      this.clockPortName := clockPortName;
      this.measures := measures;
      this.beatsPerBar := beatsPerBar;
      pulsesPerBar := PulsesPerBar(beatsPerBar);
      pulsesPerBlock := PulsesPerBlock(measures, beatsPerBar);
      isRunning := false;
      pulseCount := 0;
      lastClockTime := None;
      boundaryCallbacks := [];
    }

    method RegisterBoundaryCallback(cb: Callback)
      modifies this
      ensures boundaryCallbacks == old(boundaryCallbacks) + [cb]
      ensures State() == old(State())
    {
      boundaryCallbacks := boundaryCallbacks + [cb];
    }

    /** The port name to open, chosen from the listed input names. */
    function ResolvePortName(available: seq<string>): (r: string)
      ensures clockPortName in available ==> r == clockPortName
      ensures clockPortName !in available && Ports.FirstPrefixMatch(clockPortName, available).Some? ==>
                r == Ports.FirstPrefixMatch(clockPortName, available).value
      ensures r in available || r == clockPortName
      ensures clockPortName <= r
    {
      Ports.ResolvePortName(clockPortName, available)
    }

    /**
     * Handles one message; a tick may report a block boundary, in which case
     * every registered callback is invoked with the boundary pulse.
     */
    method HandleMsg(msg: ClockMsg, now: real) returns (boundary: Option<int>, invoked: seq<Callback>)
      requires Valid()
      modifies this
      ensures State() == Step(old(State()), msg, now)
      ensures boundary == Report(old(State()), msg, now, pulsesPerBlock)
      ensures invoked == if boundary.Some? then boundaryCallbacks else []
      ensures boundaryCallbacks == old(boundaryCallbacks)
    {
      boundary, invoked := None, [];
      if msg == Start {
        isRunning := true;
        pulseCount := 0;
        lastClockTime := None;
      } else if msg == Continue {
        isRunning := true;
      } else if msg == Stop {
        isRunning := false;
      } else if msg == ClockTick {
        boundary, invoked := HandlePulse(now);
      }
    }

    method HandlePulse(now: real) returns (boundary: Option<int>, invoked: seq<Callback>)
      requires Valid()
      modifies this
      ensures State() == Step(old(State()), ClockTick, now)
      ensures boundary == Report(old(State()), ClockTick, now, pulsesPerBlock)
      ensures invoked == if boundary.Some? then boundaryCallbacks else []
      ensures boundaryCallbacks == old(boundaryCallbacks)
    {
      pulseCount := pulseCount + 1;
      lastClockTime := Some(now);
      boundary, invoked := None, [];
      if isRunning && pulseCount % pulsesPerBlock == 0 {
        boundary := Some(pulseCount);
        invoked := boundaryCallbacks;
      }
    }
  }
}

=== FILE: midi_buffer.dfy ===
/**
 * Timestamped performance messages and the rolling buffer that keeps the
 * messages of the last `window` seconds.
 */
module MidiBuffer {
  import opened Wrappers

  /** `msg_type`: the three message strings the bridge records. */
  datatype MsgKind = NoteOn | NoteOff | ControlChange

  /** A MIDI message with the time it was received and, when a clock runs, its pulse index. */
  datatype TimestampedMidiMsg = TimestampedMidiMsg(
    kind: MsgKind,
    note: Option<int>,
    velocity: Option<int>,
    control: Option<int>,
    value: Option<int>,
    timestamp: real,
    pulse: Option<int>)

  /** A note_on whose velocity is present and positive (`msg.velocity and msg.velocity > 0`). */
  predicate IsSounding(m: TimestampedMidiMsg)
  {
    m.kind == NoteOn && m.velocity.Some? && m.velocity.value > 0
  }

  /** A note_off, or a note_on with velocity 0. */
  predicate IsRelease(m: TimestampedMidiMsg)
  {
    m.kind == NoteOff || (m.kind == NoteOn && m.velocity == Some(0))
  }

  /** A sustain-pedal change (controller 64). */
  predicate IsSustain(m: TimestampedMidiMsg)
  {
    m.kind == ControlChange && m.control == Some(64)
  }

  /** Sustain values above 64 count as pedal down (`msg.value and msg.value > 64`). */
  predicate PedalDown(m: TimestampedMidiMsg)
  {
    m.value.Some? && m.value.value > 64
  }

  predicate Chronological(s: seq<TimestampedMidiMsg>)
  {
    forall i, j :: 0 <= i < j < |s| ==> s[i].timestamp <= s[j].timestamp
  }

  /**
   * What remains after popping expired messages from the front: the longest
   * suffix that starts with a message no older than `cutoff`.
   */
  function Unexpired(s: seq<TimestampedMidiMsg>, cutoff: real): (r: seq<TimestampedMidiMsg>)
    ensures |r| <= |s|
    ensures r == [] || r[0].timestamp >= cutoff
    ensures forall i :: 0 <= i < |s| - |r| ==> s[i].timestamp < cutoff
  {
    if s != [] && s[0].timestamp < cutoff then Unexpired(s[1..], cutoff) else s
  }

  /** The trim only ever drops messages from the front. */
  lemma {:induction false} UnexpiredIsSuffix(s: seq<TimestampedMidiMsg>, cutoff: real)
    ensures Unexpired(s, cutoff) == s[|s| - |Unexpired(s, cutoff)|..]
  {
    if s != [] && s[0].timestamp < cutoff {
      UnexpiredIsSuffix(s[1..], cutoff);
      assert s[1..][|s| - 1 - |Unexpired(s[1..], cutoff)|..] == s[|s| - |Unexpired(s, cutoff)|..];
    }
  }

  /** In a chronological buffer every retained message is within the window. */
  lemma UnexpiredWithinWindow(s: seq<TimestampedMidiMsg>, cutoff: real)
    requires Chronological(s)
    ensures Chronological(Unexpired(s, cutoff))
    ensures forall i :: 0 <= i < |Unexpired(s, cutoff)| ==> Unexpired(s, cutoff)[i].timestamp >= cutoff
  {
    var r := Unexpired(s, cutoff);
    UnexpiredIsSuffix(s, cutoff);
    forall i | 0 <= i < |r| ensures r[i].timestamp >= cutoff {
      assert r[i] == s[|s| - |r| + i] && r[0] == s[|s| - |r|];
    }
  }

  /** A message appended at or after the cutoff survives the trim and stays last. */
  lemma {:induction false} NewestSurvives(s: seq<TimestampedMidiMsg>, x: TimestampedMidiMsg, cutoff: real)
    requires x.timestamp >= cutoff
    ensures var r := Unexpired(s + [x], cutoff); r != [] && r[|r| - 1] == x
  {
    if s != [] && s[0].timestamp < cutoff {
      assert (s + [x])[1..] == s[1..] + [x];
      NewestSurvives(s[1..], x, cutoff);
    }
  }

  /** Appending with a clock that never runs backwards keeps the buffer chronological. */
  lemma AppendKeepsChronological(s: seq<TimestampedMidiMsg>, x: TimestampedMidiMsg, cutoff: real)
    requires Chronological(s)
    requires s == [] || s[|s| - 1].timestamp <= x.timestamp
    ensures Chronological(Unexpired(s + [x], cutoff))
  {
    var t := s + [x];
    assert Chronological(t) by {
      forall i, j | 0 <= i < j < |t| ensures t[i].timestamp <= t[j].timestamp {
        if j == |s| && i < |s| {
          assert s[i].timestamp <= s[|s| - 1].timestamp;
        }
      }
    }
    UnexpiredWithinWindow(t, cutoff);
  }

  class RollingMidiBuffer {
    const windowSeconds: real
    var buffer: seq<TimestampedMidiMsg>

    constructor (windowSeconds: real)
      ensures this.windowSeconds == windowSeconds && buffer == []
    {
      this.windowSeconds := windowSeconds;
      buffer := [];
    }

    /**
     * Records a message of the given kind and fields, stamped with the
     * clock reading `stamp`; the trim that follows reads the clock again
     * (`now`).
     */
    method AddMessage(kind: MsgKind, note: Option<int>, velocity: Option<int>, control: Option<int>,
                      value: Option<int>, pulse: Option<int>, stamp: real, now: real)
      modifies this
      ensures buffer == Unexpired(old(buffer) + [TimestampedMidiMsg(kind, note, velocity, control, value, stamp, pulse)],
                                  now - windowSeconds)
    {
      var msg := TimestampedMidiMsg(kind, note, velocity, control, value, stamp, pulse);
      buffer := buffer + [msg];
      TrimOldMessages(now);
    }

    /** Trims, then returns a copy of everything retained. */
    method GetMessages(now: real) returns (messages: seq<TimestampedMidiMsg>)
      modifies this
      ensures buffer == Unexpired(old(buffer), now - windowSeconds)
      ensures messages == buffer
    {
      TrimOldMessages(now);
      messages := buffer;
    }

    method Clear()
      modifies this
      ensures buffer == []
    {
      buffer := [];
    }

    /** The time between the oldest and the newest message held; 0 when empty. */
    function DurationSeconds(): (d: real)
      reads this
      ensures buffer == [] ==> d == 0.0
      ensures Chronological(buffer) ==> d >= 0.0
    {
      if buffer == [] then 0.0 else buffer[|buffer| - 1].timestamp - buffer[0].timestamp
    }

    /** Pops messages from the front while the oldest is older than `now - windowSeconds`. */
    method TrimOldMessages(now: real)
      modifies this
      ensures buffer == Unexpired(old(buffer), now - windowSeconds)
    {
      var cutoff := now - windowSeconds;
      while buffer != [] && buffer[0].timestamp < cutoff
        invariant Unexpired(buffer, cutoff) == Unexpired(old(buffer), cutoff)
        decreases |buffer|
      {
        buffer := buffer[1..];
      }
    }
  }
}

=== FILE: port_names.dfy ===
/**
 * Choosing a MIDI port name from the names the system currently lists.
 * Operating systems often append a number to a virtual port's name
 * ("ARIA_CLOCK" is listed as "ARIA_CLOCK 0"), so a configured name is
 * matched exactly first and then as a prefix.
 */
module Ports {
  import opened Wrappers

  /** The first listed name that starts with `name` (Python's `str.startswith`). */
  function FirstPrefixMatch(name: string, available: seq<string>): (r: Option<string>)
    ensures r.Some? ==> exists i :: 0 <= i < |available| && available[i] == r.value
                                    && name <= available[i]
                                    && forall j :: 0 <= j < i ==> !(name <= available[j])
    ensures r.None? <==> forall i :: 0 <= i < |available| ==> !(name <= available[i])
  {
    if available == [] then None
    else if name <= available[0] then Some(available[0])
    else
      var r := FirstPrefixMatch(name, available[1..]);
      assert forall i :: 1 <= i < |available| ==> available[i] == available[1..][i - 1];
      r
  }

  /**
   * The name the pulse clock and the tempo tracker open: the configured name
   * when it is listed, else the first listed name it prefixes, else the
   * configured name itself (whose opening then fails).
   */
  function ResolvePortName(name: string, available: seq<string>): (r: string)
    ensures name in available ==> r == name
    ensures name !in available && FirstPrefixMatch(name, available).Some? ==>
              r == FirstPrefixMatch(name, available).value
    ensures r in available || r == name
    ensures name <= r
  {
    if name in available then name
    else match FirstPrefixMatch(name, available)
      case Some(p) => p
      case None => name
  }

  /**
   * The bridge's own choice for its input and output ports: opening the
   * configured name succeeds when it is listed; otherwise the first listed
   * name it prefixes is opened; otherwise opening fails (None).
   */
  function OpenPortName(name: string, available: seq<string>): (r: Option<string>)
    ensures name in available ==> r == Some(name)
    ensures name !in available ==> r == FirstPrefixMatch(name, available)
    ensures r.Some? ==> r.value in available && name <= r.value
    ensures r.None? <==> forall p :: p in available ==> !(name <= p)
  {
    if name in available then Some(name) else FirstPrefixMatch(name, available)
  }

  /** The bridge opens exactly the name the clock would resolve, whenever that name is listed. */
  lemma OpenAgreesWithResolve(name: string, available: seq<string>)
    ensures OpenPortName(name, available) ==
              if ResolvePortName(name, available) in available
              then Some(ResolvePortName(name, available)) else None
  {
    if name !in available {
      match FirstPrefixMatch(name, available)
      case Some(p) =>
      case None =>
    }
  }
}

=== FILE: prompt_midi.dfy ===
/**
 * The prompt encoder: turns buffered performance messages into (1) a
 * note/pedal dictionary with paired note-on/note-off messages and (2) a
 * single MIDI track with non-negative delta times.
 */
module PromptMidi {
  import opened Wrappers
  import opened PyInt
  import opened MidiBuffer
  import Sorting

  /** Ticks per quarter note of the note dictionary. */
  const Resolution: int := 480
  /** Milliseconds per quarter note at the reference tempo of 120 BPM. */
  const MsPerQuarter: int := 500
  /** Clock pulses per quarter note. */
  const PPQN: int := 24

  // ---------------------------------------------------------------------
  // Note dictionary

  /** An open note, keyed by (pitch, velocity), with the tick it started at. */
  datatype OpenNote = OpenNote(pitch: Option<int>, velocity: int, start: int)
  datatype NoteMsg = NoteMsg(start: int, duration: int, pitch: Option<int>, velocity: int, tick: int)
  datatype PedalMsg = PedalMsg(tick: int, data: int)
  datatype MidiDict = MidiDict(noteMsgs: seq<NoteMsg>, pedalMsgs: seq<PedalMsg>, resolution: int)

  /** The loop state of the pairing: open notes in insertion order, closed notes, pedal changes. */
  datatype Pairing = Pairing(active: seq<OpenNote>, notes: seq<NoteMsg>, pedals: seq<PedalMsg>)

  /** `dt` seconds in ticks, at `ticksPerBeat` ticks per 500 ms, before truncation. */
  function ScaledTicks(dt: real, ticksPerBeat: int): real
  {
    dt * 1000.0 * (ticksPerBeat as real / MsPerQuarter as real)
  }

  /** The tick of a message received at `t`, measured from `t0` at 480 ticks per 500 ms. */
  function MsTick(t: real, t0: real): int
  {
    Trunc(ScaledTicks(t - t0, Resolution))
  }

  /** Where the key (pitch, velocity) sits among the open notes. */
  function KeyIndex(active: seq<OpenNote>, pitch: Option<int>, velocity: int): (r: Option<nat>)
    ensures r.Some? ==> r.value < |active| && active[r.value].pitch == pitch
                        && active[r.value].velocity == velocity
    ensures r.None? ==> forall i :: 0 <= i < |active| ==>
                          !(active[i].pitch == pitch && active[i].velocity == velocity)
  {
    if active == [] then None
    else if active[0].pitch == pitch && active[0].velocity == velocity then Some(0)
    else match KeyIndex(active[1..], pitch, velocity)
      case Some(i) => Some(i + 1)
      case None => None
  }

  /** The first open note, in insertion order, with the given pitch. */
  function FirstWithPitch(active: seq<OpenNote>, pitch: Option<int>): (r: Option<nat>)
    ensures r.Some? ==> r.value < |active| && active[r.value].pitch == pitch
                        && forall j :: 0 <= j < r.value ==> active[j].pitch != pitch
    ensures r.None? <==> forall i :: 0 <= i < |active| ==> active[i].pitch != pitch
  {
    if active == [] then None
    else if active[0].pitch == pitch then Some(0)
    else match FirstWithPitch(active[1..], pitch)
      case Some(i) => Some(i + 1)
      case None => (assert forall i :: 1 <= i < |active| ==> active[i] == active[1..][i - 1]; None)
  }

  /**
   * `active_notes[(pitch, velocity)] = tick`: an existing key keeps its place
   * and gets the new start tick; a new key is added last.
   */
  function SetStart(active: seq<OpenNote>, pitch: Option<int>, velocity: int, tick: int): (r: seq<OpenNote>)
    ensures |r| == |active| + (if KeyIndex(active, pitch, velocity).Some? then 0 else 1)
    ensures KeyIndex(active, pitch, velocity).Some? ==>
              var i := KeyIndex(active, pitch, velocity).value;
              r[i] == OpenNote(pitch, velocity, tick)
              && forall j :: 0 <= j < |active| && j != i ==> r[j] == active[j]
    ensures KeyIndex(active, pitch, velocity).None? ==> r == active + [OpenNote(pitch, velocity, tick)]
  {
    match KeyIndex(active, pitch, velocity)
    case Some(i) => active[i := OpenNote(pitch, velocity, tick)]
    case None => active + [OpenNote(pitch, velocity, tick)]
  }

  function RemoveAt<T>(s: seq<T>, i: nat): seq<T>
    requires i < |s|
  {
    s[..i] + s[i + 1..]
  }

  /** The note closed by a release at `endTick`. */
  function Closed(o: OpenNote, pitch: Option<int>, endTick: int): NoteMsg
  {
    NoteMsg(o.start, Max(1, endTick - o.start), pitch, o.velocity, o.start)
  }

  /** One message of the pairing loop, received at `tick`. */
  function PairStep(p: Pairing, m: TimestampedMidiMsg, tick: int): (r: Pairing)
    ensures |r.notes| + |r.active| <= |p.notes| + |p.active| + (if IsSounding(m) then 1 else 0)
    ensures r.notes == p.notes || (IsRelease(m) && |r.notes| == |p.notes| + 1 && r.notes[..|p.notes|] == p.notes)
    ensures IsSounding(m) ==> r.notes == p.notes && r.pedals == p.pedals
                              && r.active == SetStart(p.active, m.note, m.velocity.value, tick)
    ensures IsSounding(m) && KeyIndex(p.active, m.note, m.velocity.value).Some? ==>
              |r.active| == |p.active|
    ensures IsRelease(m) && FirstWithPitch(p.active, m.note).None? ==> r == p
    ensures IsRelease(m) && FirstWithPitch(p.active, m.note).Some? ==>
              (var i := FirstWithPitch(p.active, m.note).value;
               r.notes == p.notes + [Closed(p.active[i], m.note, tick)]
               && r.active == RemoveAt(p.active, i) && r.pedals == p.pedals)
    ensures IsSustain(m) ==>
              r.pedals == p.pedals + [PedalMsg(tick, if PedalDown(m) then 1 else 0)]
              && r.notes == p.notes && r.active == p.active
  {
    if IsSounding(m) then
      p.(active := SetStart(p.active, m.note, m.velocity.value, tick))
    else if IsRelease(m) then
      match FirstWithPitch(p.active, m.note)
      case None => p
      case Some(i) =>
        Pairing(RemoveAt(p.active, i), p.notes + [Closed(p.active[i], m.note, tick)], p.pedals)
    else if IsSustain(m) then
      p.(pedals := p.pedals + [PedalMsg(tick, if PedalDown(m) then 1 else 0)])
    else p
  }

  /** The pairing loop over a whole buffer, ticks measured from `t0`. */
  function PairAll(msgs: seq<TimestampedMidiMsg>, t0: real): Pairing
  {
    if msgs == [] then Pairing([], [], [])
    else
      var m := msgs[|msgs| - 1];
      PairStep(PairAll(msgs[..|msgs| - 1], t0), m, MsTick(m.timestamp, t0))
  }

  /** Notes still open at the end are closed with duration 1, in insertion order. */
  function CloseAll(active: seq<OpenNote>): seq<NoteMsg>
  {
    if active == [] then []
    else
      var o := active[|active| - 1];
      CloseAll(active[..|active| - 1]) + [NoteMsg(o.start, 1, o.pitch, o.velocity, o.start)]
  }

  /** The note dictionary of a buffer. */
  function MidiDictOf(msgs: seq<TimestampedMidiMsg>): MidiDict
  {
    if msgs == [] then MidiDict([], [], Resolution)
    else
      var p := PairAll(msgs, msgs[0].timestamp);
      MidiDict(p.notes + CloseAll(p.active), p.pedals, Resolution)
  }

  function CountSounding(msgs: seq<TimestampedMidiMsg>): nat
  {
    if msgs == [] then 0
    else CountSounding(msgs[..|msgs| - 1]) + (if IsSounding(msgs[|msgs| - 1]) then 1 else 0)
  }

  /** Every note on (with positive velocity) yields at most one note: open and closed notes never outnumber them. */
  lemma {:induction false} PairingBound(msgs: seq<TimestampedMidiMsg>, t0: real)
    ensures |PairAll(msgs, t0).notes| + |PairAll(msgs, t0).active| <= CountSounding(msgs)
  {
    if msgs != [] {
      PairingBound(msgs[..|msgs| - 1], t0);
    }
  }

  predicate WellFormedNote(n: NoteMsg)
  {
    n.duration >= 1 && n.tick == n.start
  }

  lemma {:induction false} PairedNotesWellFormed(msgs: seq<TimestampedMidiMsg>, t0: real)
    ensures forall i :: 0 <= i < |PairAll(msgs, t0).notes| ==> WellFormedNote(PairAll(msgs, t0).notes[i])
  {
    if msgs != [] {
      var pre := msgs[..|msgs| - 1];
      PairedNotesWellFormed(pre, t0);
      var p := PairAll(pre, t0);
      var r := PairAll(msgs, t0);
      forall i | 0 <= i < |r.notes| ensures WellFormedNote(r.notes[i]) {
        if i < |p.notes| {
          assert r.notes[i] == p.notes[i];
        }
      }
    }
  }

  lemma {:induction false} CloseAllFacts(active: seq<OpenNote>)
    ensures |CloseAll(active)| == |active|
    ensures forall i :: 0 <= i < |active| ==>
              CloseAll(active)[i] == NoteMsg(active[i].start, 1, active[i].pitch, active[i].velocity, active[i].start)
  {
    if active != [] {
      CloseAllFacts(active[..|active| - 1]);
    }
  }

  /** No key is open twice: a repeated note on with the same velocity restarts the open note. */
  predicate DistinctKeys(active: seq<OpenNote>)
  {
    forall i, j :: 0 <= i < j < |active| ==>
      !(active[i].pitch == active[j].pitch && active[i].velocity == active[j].velocity)
  }

  lemma {:induction false} OpenKeysDistinct(msgs: seq<TimestampedMidiMsg>, t0: real)
    ensures DistinctKeys(PairAll(msgs, t0).active)
  {
    if msgs != [] {
      var pre, m := msgs[..|msgs| - 1], msgs[|msgs| - 1];
      OpenKeysDistinct(pre, t0);
      PairStepKeepsDistinct(PairAll(pre, t0), m, MsTick(m.timestamp, t0));
    }
  }

  lemma PairStepKeepsDistinct(p: Pairing, m: TimestampedMidiMsg, tick: int)
    requires DistinctKeys(p.active)
    ensures DistinctKeys(PairStep(p, m, tick).active)
  {
    if IsSounding(m) {
      SetStartKeepsDistinct(p.active, m.note, m.velocity.value, tick);
    } else if IsRelease(m) && FirstWithPitch(p.active, m.note).Some? {
      RemoveAtKeepsDistinct(p.active, FirstWithPitch(p.active, m.note).value);
    }
  }

  lemma SetStartKeepsDistinct(active: seq<OpenNote>, pitch: Option<int>, velocity: int, tick: int)
    requires DistinctKeys(active)
    ensures DistinctKeys(SetStart(active, pitch, velocity, tick))
  {
    var o := OpenNote(pitch, velocity, tick);
    match KeyIndex(active, pitch, velocity)
    case Some(k) =>
      assert SetStart(active, pitch, velocity, tick) == active[k := o];
    case None =>
      assert SetStart(active, pitch, velocity, tick) == active + [o];
  }

  lemma RemoveAtKeepsDistinct(active: seq<OpenNote>, k: nat)
    requires k < |active| && DistinctKeys(active)
    ensures DistinctKeys(RemoveAt(active, k))
  {
    var r := RemoveAt(active, k);
    forall i, j | 0 <= i < j < |r|
      ensures !(r[i].pitch == r[j].pitch && r[i].velocity == r[j].velocity)
    {
      var i' := if i < k then i else i + 1;
      var j' := if j < k then j else j + 1;
      assert r[i] == active[i'] && r[j] == active[j'];
    }
  }

  /** The pedal changes of a buffer, one per sustain message, in order. */
  function PedalsOf(msgs: seq<TimestampedMidiMsg>, t0: real): seq<PedalMsg>
  {
    if msgs == [] then []
    else
      var m := msgs[|msgs| - 1];
      PedalsOf(msgs[..|msgs| - 1], t0)
        + (if IsSustain(m) then [PedalMsg(MsTick(m.timestamp, t0), if PedalDown(m) then 1 else 0)] else [])
  }

  lemma {:induction false} PedalsAreSustains(msgs: seq<TimestampedMidiMsg>, t0: real)
    ensures PairAll(msgs, t0).pedals == PedalsOf(msgs, t0)
  {
    if msgs != [] {
      PedalsAreSustains(msgs[..|msgs| - 1], t0);
    }
  }

  /**
   * `buffer_to_midi_dict`: pairs each release with the first open note of
   * its pitch, records sustain changes, and closes what is left open.
   */
  method BufferToMidiDict(messages: seq<TimestampedMidiMsg>) returns (d: MidiDict)
    ensures d == MidiDictOf(messages)
    ensures messages == [] ==> d == MidiDict([], [], Resolution)
    ensures d.resolution == Resolution
    ensures |d.noteMsgs| <= CountSounding(messages)
    ensures forall i :: 0 <= i < |d.noteMsgs| ==> WellFormedNote(d.noteMsgs[i])
    ensures messages != [] ==> d.pedalMsgs == PedalsOf(messages, messages[0].timestamp)
  {
    if messages == [] {
      return MidiDict([], [], Resolution);
    }
    var t0 := messages[0].timestamp;
    var p := PairMessages(messages, t0);
    var closedNotes := CloseRemaining(p.notes, p.active);
    d := MidiDict(closedNotes, p.pedals, Resolution);
    PairingBound(messages, t0);
    PairedNotesWellFormed(messages, t0);
    CloseAllFacts(p.active);
    PedalsAreSustains(messages, t0);
    forall i | 0 <= i < |d.noteMsgs| ensures WellFormedNote(d.noteMsgs[i]) {
      if i >= |p.notes| {
        assert d.noteMsgs[i] == CloseAll(p.active)[i - |p.notes|];
      }
    }
  }

  /** The pairing loop over the buffer, ticks measured from `t0`. */
  method PairMessages(messages: seq<TimestampedMidiMsg>, t0: real) returns (p: Pairing)
    ensures p == PairAll(messages, t0)
  {
    p := Pairing([], [], []);
    for i := 0 to |messages|
      invariant p == PairAll(messages[..i], t0)
    {
      var m := messages[i];
      var tick := MsTick(m.timestamp, t0);
      assert messages[..i + 1][..i] == messages[..i];
      p := PairMessage(p, m, tick);
    }
    assert messages[..|messages|] == messages;
  }

  /** One message of the pairing loop, received at tick `tick`. */
  method PairMessage(p: Pairing, m: TimestampedMidiMsg, tick: int) returns (q: Pairing)
    ensures q == PairStep(p, m, tick)
  {
    var active, notes, pedals := p.active, p.notes, p.pedals;
    if IsSounding(m) {
      active := SetStart(active, m.note, m.velocity.value, tick);
    } else if IsRelease(m) {
      var endTick := tick;
      var j := 0;
      while j < |active| && active[j].pitch != m.note
        invariant 0 <= j <= |active|
        invariant forall k :: 0 <= k < j ==> active[k].pitch != m.note
      {
        j := j + 1;
      }
      var found := false;
      if j < |active| {
        notes := notes + [Closed(active[j], m.note, endTick)];
        active := RemoveAt(active, j);
        found := true;
      }
      if !found && exists k :: 0 <= k < |active| && active[k].pitch == m.note {
        // the fallback search can never succeed where the first one failed
        assert false;
      }
    } else if IsSustain(m) {
      pedals := pedals + [PedalMsg(tick, if PedalDown(m) then 1 else 0)];
    }
    q := Pairing(active, notes, pedals);
  }

  /** The closing loop: every note still open gets a duration of one tick. */
  method CloseRemaining(notes: seq<NoteMsg>, active: seq<OpenNote>) returns (closedNotes: seq<NoteMsg>)
    ensures closedNotes == notes + CloseAll(active)
  {
    closedNotes := notes;
    for k := 0 to |active|
      invariant closedNotes == notes + CloseAll(active[..k])
    {
      var o := active[k];
      assert active[..k + 1][..k] == active[..k];
      closedNotes := closedNotes + [NoteMsg(o.start, 1, o.pitch, o.velocity, o.start)];
    }
    assert active[..|active|] == active;
  }

  // ---------------------------------------------------------------------
  // Single-track MIDI file

  /** An event of the track: the optional tempo meta message and channel messages with delta times. */
  datatype TrackEvent =
    | SetTempo(bpm: real)
    | ProgramChange(program: int, time: int)
    | NoteOnEvent(note: Option<int>, velocity: int, time: int)
    | NoteOffEvent(note: Option<int>, velocity: int, time: int)
    | ControlEvent(control: int, value: int, time: int)

  /** The delta time of an event; the tempo meta message sits at delta 0. */
  function Time(e: TrackEvent): int
  {
    if e.SetTempo? then 0 else e.time
  }

  /** A tempo message when a non-zero BPM is known. */
  function Header(bpm: Option<real>): (r: seq<TrackEvent>)
    ensures |r| <= 1
    ensures r != [] <==> bpm.Some? && bpm.value != 0.0
    ensures r != [] ==> r[0] == SetTempo(bpm.value)
  {
    if bpm.Some? && bpm.value != 0.0 then [SetTempo(bpm.value)] else []
  }

  /** The track of an empty prompt: the tempo (if known) and one program change to program 0. */
  function MinimalTrack(bpm: Option<real>): seq<TrackEvent>
  {
    Header(bpm) + [ProgramChange(0, 0)]
  }

  predicate AnyPulse(msgs: seq<TimestampedMidiMsg>)
  {
    exists i :: 0 <= i < |msgs| && msgs[i].pulse.Some?
  }

  /** The messages stamped at or after `cutoff`, in buffer order. */
  function Recent(msgs: seq<TimestampedMidiMsg>, cutoff: real): (r: seq<TimestampedMidiMsg>)
    ensures forall i :: 0 <= i < |r| ==> r[i].timestamp >= cutoff && r[i] in msgs
    ensures forall m :: m in msgs && m.timestamp >= cutoff ==> m in r
  {
    if msgs == [] then []
    else
      var rest := Recent(msgs[1..], cutoff);
      assert forall m :: m in msgs[1..] ==> m in msgs;
      if msgs[0].timestamp >= cutoff then [msgs[0]] + rest else rest
  }

  /**
   * `Recent` keeps every recent message as often as the buffer holds it and
   * drops every other one.
   */
  lemma {:induction false} RecentCounts(msgs: seq<TimestampedMidiMsg>, cutoff: real)
    ensures forall m :: multiset(Recent(msgs, cutoff))[m] == if m.timestamp >= cutoff then multiset(msgs)[m] else 0
  {
    if msgs != [] {
      RecentCounts(msgs[1..], cutoff);
      assert msgs == [msgs[0]] + msgs[1..];
    }
  }

  /** `Recent` keeps buffer order: filtering a concatenation filters each part. */
  lemma {:induction false} RecentAppend(a: seq<TimestampedMidiMsg>, b: seq<TimestampedMidiMsg>, cutoff: real)
    ensures Recent(a + b, cutoff) == Recent(a, cutoff) + Recent(b, cutoff)
  {
    if a == [] {
      assert a + b == b;
    } else {
      RecentAppend(a[1..], b, cutoff);
      assert (a + b)[1..] == a[1..] + b;
    }
  }

  /**
   * The first kept message is the first recent one in the buffer; its
   * timestamp is the origin the prompt's delta times are measured from.
   */
  lemma {:induction false} RecentHead(msgs: seq<TimestampedMidiMsg>, cutoff: real, k: int)
    requires 0 <= k < |msgs| && msgs[k].timestamp >= cutoff
    requires forall j :: 0 <= j < k ==> msgs[j].timestamp < cutoff
    ensures Recent(msgs, cutoff) != [] && Recent(msgs, cutoff)[0] == msgs[k]
  {
    if k > 0 {
      RecentHead(msgs[1..], cutoff, k - 1);
    }
  }

  /** All messages when any of them carries a clock pulse; otherwise those of the last `windowSeconds`. */
  function Windowed(msgs: seq<TimestampedMidiMsg>, windowSeconds: real, now: real): seq<TimestampedMidiMsg>
  {
    if AnyPulse(msgs) then msgs else Recent(msgs, now - windowSeconds)
  }

  function MinPulse(msgs: seq<TimestampedMidiMsg>): (p: int)
    requires AnyPulse(msgs)
    ensures exists i :: 0 <= i < |msgs| && msgs[i].pulse == Some(p)
    ensures forall i :: 0 <= i < |msgs| && msgs[i].pulse.Some? ==> p <= msgs[i].pulse.value
  {
    if msgs[0].pulse.Some? && !AnyPulse(msgs[1..]) then
      assert forall i :: 1 <= i < |msgs| ==> msgs[i] == msgs[1..][i - 1];
      msgs[0].pulse.value
    else if msgs[0].pulse.None? then
      assert AnyPulse(msgs[1..]) by {
        var i :| 0 <= i < |msgs| && msgs[i].pulse.Some?;
        assert msgs[1..][i - 1] == msgs[i];
      }
      var q := MinPulse(msgs[1..]);
      assert forall i :: 1 <= i < |msgs| ==> msgs[i] == msgs[1..][i - 1];
      q
    else
      var q := MinPulse(msgs[1..]);
      assert forall i :: 1 <= i < |msgs| ==> msgs[i] == msgs[1..][i - 1];
      Min(msgs[0].pulse.value, q)
  }

  function Min(a: int, b: int): int
  {
    if a <= b then a else b
  }

  /** Sort key of the pulse path: the pulse, or 0 for a message without one. */
  function PulseKey(m: TimestampedMidiMsg): real
  {
    if m.pulse.Some? then m.pulse.value as real else 0.0
  }

  function StampKey(m: TimestampedMidiMsg): real
  {
    m.timestamp
  }

  /** The tick of a message on the pulse path: whole beats of 24 pulses scaled by the resolution, truncated. */
  function PulseTick(m: TimestampedMidiMsg, firstPulse: int, ticksPerBeat: int): Option<int>
  {
    if m.pulse.Some? then Some(TruncDiv((m.pulse.value - firstPulse) * ticksPerBeat, PPQN)) else None
  }

  function PulseTicks(s: seq<TimestampedMidiMsg>, firstPulse: int, ticksPerBeat: int): (r: seq<Option<int>>)
    ensures |r| == |s|
    ensures forall i :: 0 <= i < |s| ==> r[i] == PulseTick(s[i], firstPulse, ticksPerBeat)
  {
    seq(|s|, i requires 0 <= i < |s| => PulseTick(s[i], firstPulse, ticksPerBeat))
  }

  /** The tick of a message on the timestamp path: milliseconds since `t0` at `ticksPerBeat` ticks per 500 ms, truncated. */
  function StampTick(m: TimestampedMidiMsg, t0: real, ticksPerBeat: int): int
  {
    Trunc(ScaledTicks(m.timestamp - t0, ticksPerBeat))
  }

  function StampTicks(s: seq<TimestampedMidiMsg>, t0: real, ticksPerBeat: int): (r: seq<Option<int>>)
    ensures |r| == |s|
    ensures forall i :: 0 <= i < |s| ==> r[i] == Some(StampTick(s[i], t0, ticksPerBeat))
  {
    seq(|s|, i requires 0 <= i < |s| => Some(StampTick(s[i], t0, ticksPerBeat)))
  }

  /** The messages that become track events: sounding note ons, releases and sustain changes. */
  predicate Encodable(m: TimestampedMidiMsg)
  {
    IsSounding(m) || IsRelease(m) || IsSustain(m)
  }

  /** The track event of a message at the given delta time. */
  function Encode(m: TimestampedMidiMsg, delta: int): (r: Option<TrackEvent>)
    ensures r.Some? <==> Encodable(m)
    ensures r.Some? ==> Time(r.value) == delta && !r.value.SetTempo? && !r.value.ProgramChange?
  {
    if IsSounding(m) then Some(NoteOnEvent(m.note, m.velocity.value, delta))
    else if IsRelease(m) then
      Some(NoteOffEvent(m.note, if m.velocity.Some? && m.velocity.value != 0 then m.velocity.value else 0, delta))
    else if IsSustain(m) then Some(ControlEvent(64, if PedalDown(m) then 127 else 0, delta))
    else None
  }

  /**
   * A sounding note becomes a note on with its velocity; a release a note
   * off for the same pitch, with its velocity or 0; a sustain change a
   * controller 64 event at 127 (down) or 0 (up).
   */
  lemma EncodeFaithful(m: TimestampedMidiMsg, delta: int)
    ensures IsSounding(m) ==> Encode(m, delta) == Some(NoteOnEvent(m.note, m.velocity.value, delta))
    ensures IsRelease(m) ==> var r := Encode(m, delta);
              r.Some? && r.value.NoteOffEvent? && r.value.note == m.note
              && r.value.velocity == (if m.velocity.Some? then m.velocity.value else 0)
    ensures IsSustain(m) ==> Encode(m, delta) == Some(ControlEvent(64, if PedalDown(m) then 127 else 0, delta))
  {
  }

  /**
   * The emission loop: a message without a tick is skipped, an encodable
   * one is emitted at `max(0, tick - last)` and becomes the new `last`.
   */
  function Emit(msgs: seq<TimestampedMidiMsg>, ticks: seq<Option<int>>, last: int): (r: seq<TrackEvent>)
    requires |msgs| == |ticks|
    ensures |r| <= |msgs|
  {
    if msgs == [] then []
    else if ticks[0].Some? && Encodable(msgs[0]) then
      var t := ticks[0].value;
      [Encode(msgs[0], Max(0, t - last)).value] + Emit(msgs[1..], ticks[1..], t)
    else Emit(msgs[1..], ticks[1..], last)
  }

  /** Every emitted event is a note or controller event with a non-negative delta time. */
  lemma {:induction false} EmitEventsWellFormed(msgs: seq<TimestampedMidiMsg>, ticks: seq<Option<int>>, last: int)
    requires |msgs| == |ticks|
    ensures forall i :: 0 <= i < |Emit(msgs, ticks, last)| ==>
              Time(Emit(msgs, ticks, last)[i]) >= 0 && !Emit(msgs, ticks, last)[i].SetTempo?
              && !Emit(msgs, ticks, last)[i].ProgramChange?
  {
    if msgs != [] {
      if ticks[0].Some? && Encodable(msgs[0]) {
        var e := Encode(msgs[0], Max(0, ticks[0].value - last)).value;
        var rest := Emit(msgs[1..], ticks[1..], ticks[0].value);
        EmitEventsWellFormed(msgs[1..], ticks[1..], ticks[0].value);
        assert Emit(msgs, ticks, last) == [e] + rest;
        forall i | 0 <= i < |rest| + 1
          ensures Time(([e] + rest)[i]) >= 0 && !([e] + rest)[i].SetTempo? && !([e] + rest)[i].ProgramChange?
        {
          if i > 0 {
            assert ([e] + rest)[i] == rest[i - 1];
          } else {
            assert ([e] + rest)[0] == e && Time(e) == Max(0, ticks[0].value - last);
          }
        }
      } else {
        EmitEventsWellFormed(msgs[1..], ticks[1..], last);
        assert Emit(msgs, ticks, last) == Emit(msgs[1..], ticks[1..], last);
      }
    }
  }

  /** The messages that Emit turns into events, in order. */
  function Emitted(msgs: seq<TimestampedMidiMsg>, ticks: seq<Option<int>>): seq<TimestampedMidiMsg>
    requires |msgs| == |ticks|
  {
    if msgs == [] then []
    else (if ticks[0].Some? && Encodable(msgs[0]) then [msgs[0]] else []) + Emitted(msgs[1..], ticks[1..])
  }

  /** The absolute ticks of the emitted messages, in order. */
  function EmittedTicks(msgs: seq<TimestampedMidiMsg>, ticks: seq<Option<int>>): seq<int>
    requires |msgs| == |ticks|
  {
    if msgs == [] then []
    else (if ticks[0].Some? && Encodable(msgs[0]) then [ticks[0].value] else []) + EmittedTicks(msgs[1..], ticks[1..])
  }

  /** The running sums of the delta times of a track, starting from `acc`. */
  function PrefixSums(ds: seq<int>, acc: int): (r: seq<int>)
    ensures |r| == |ds|
  {
    if ds == [] then [] else [acc + ds[0]] + PrefixSums(ds[1..], acc + ds[0])
  }

  function Times(es: seq<TrackEvent>): (r: seq<int>)
    ensures |r| == |es|
  {
    if es == [] then [] else [Time(es[0])] + Times(es[1..])
  }

  /** Every tick present is at least `last`, and present ticks never decrease. */
  predicate TicksOrdered(ticks: seq<Option<int>>, last: int)
  {
    (forall i :: 0 <= i < |ticks| && ticks[i].Some? ==> ticks[i].value >= last)
    && (forall i, j :: 0 <= i < j < |ticks| && ticks[i].Some? && ticks[j].Some? ==>
          ticks[i].value <= ticks[j].value)
  }

  /** Event k of the emission is the encoding of emitted message k. */
  lemma {:induction false} EmitEncodes(msgs: seq<TimestampedMidiMsg>, ticks: seq<Option<int>>, last: int)
    requires |msgs| == |ticks|
    ensures |Emit(msgs, ticks, last)| == |Emitted(msgs, ticks)|
    ensures forall k :: 0 <= k < |Emitted(msgs, ticks)| ==>
              Encode(Emitted(msgs, ticks)[k], Time(Emit(msgs, ticks, last)[k])) == Some(Emit(msgs, ticks, last)[k])
  {
    if msgs != [] {
      var em := Emitted(msgs[1..], ticks[1..]);
      if ticks[0].Some? && Encodable(msgs[0]) {
        var e := Encode(msgs[0], Max(0, ticks[0].value - last)).value;
        var rest := Emit(msgs[1..], ticks[1..], ticks[0].value);
        EmitEncodes(msgs[1..], ticks[1..], ticks[0].value);
        assert Emit(msgs, ticks, last) == [e] + rest;
        assert Emitted(msgs, ticks) == [msgs[0]] + em;
        forall k | 0 <= k < |em| + 1
          ensures Encode(([msgs[0]] + em)[k], Time(([e] + rest)[k])) == Some(([e] + rest)[k])
        {
          if k > 0 {
            assert ([msgs[0]] + em)[k] == em[k - 1] && ([e] + rest)[k] == rest[k - 1];
          }
        }
      } else {
        EmitEncodes(msgs[1..], ticks[1..], last);
        assert Emitted(msgs, ticks) == [] + em == em;
      }
    }
  }

  lemma TicksOrderedTail(ticks: seq<Option<int>>, last: int, last': int)
    requires ticks != [] && TicksOrdered(ticks, last)
    requires last' <= last || (ticks[0].Some? && last' == ticks[0].value)
    ensures TicksOrdered(ticks[1..], last')
  {
    forall i | 0 <= i < |ticks| - 1 && ticks[1..][i].Some? ensures ticks[1..][i].value >= last' {
      assert ticks[1..][i] == ticks[i + 1];
    }
  }

  lemma TimesCons(e: TrackEvent, rest: seq<TrackEvent>)
    ensures Times([e] + rest) == [Time(e)] + Times(rest)
  {
    assert ([e] + rest)[1..] == rest;
  }

  lemma PrefixSumsCons(d: int, ds: seq<int>, acc: int)
    ensures PrefixSums([d] + ds, acc) == [acc + d] + PrefixSums(ds, acc + d)
  {
    assert ([d] + ds)[1..] == ds;
  }

  /**
   * When ticks never decrease, the delta times add up exactly to the
   * absolute ticks of the emitted messages: the clamp to 0 never fires.
   */
  lemma {:induction false} EmitSums(msgs: seq<TimestampedMidiMsg>, ticks: seq<Option<int>>, last: int)
    requires |msgs| == |ticks| && TicksOrdered(ticks, last)
    ensures PrefixSums(Times(Emit(msgs, ticks, last)), last) == EmittedTicks(msgs, ticks)
  {
    if msgs != [] {
      if ticks[0].Some? && Encodable(msgs[0]) {
        TicksOrderedTail(ticks, last, ticks[0].value);
        EmitSums(msgs[1..], ticks[1..], ticks[0].value);
      } else {
        TicksOrderedTail(ticks, last, last);
        EmitSums(msgs[1..], ticks[1..], last);
      }
      EmitSumsStep(msgs, ticks, last);
    }
  }

  /** The step of EmitSums: the first message, given the sums of the rest. */
  lemma EmitSumsStep(msgs: seq<TimestampedMidiMsg>, ticks: seq<Option<int>>, last: int)
    requires |msgs| == |ticks| && msgs != []
    requires ticks[0].Some? ==> ticks[0].value >= last
    requires ticks[0].Some? && Encodable(msgs[0]) ==>
               PrefixSums(Times(Emit(msgs[1..], ticks[1..], ticks[0].value)), ticks[0].value)
               == EmittedTicks(msgs[1..], ticks[1..])
    requires !(ticks[0].Some? && Encodable(msgs[0])) ==>
               PrefixSums(Times(Emit(msgs[1..], ticks[1..], last)), last) == EmittedTicks(msgs[1..], ticks[1..])
    ensures PrefixSums(Times(Emit(msgs, ticks, last)), last) == EmittedTicks(msgs, ticks)
  {
    if ticks[0].Some? && Encodable(msgs[0]) {
      var t := ticks[0].value;
      var e := Encode(msgs[0], Max(0, t - last)).value;
      var rest := Emit(msgs[1..], ticks[1..], t);
      assert Time(e) == t - last;
      calc {
        PrefixSums(Times(Emit(msgs, ticks, last)), last);
        PrefixSums(Times([e] + rest), last);
        { TimesCons(e, rest); }
        PrefixSums([t - last] + Times(rest), last);
        { PrefixSumsCons(t - last, Times(rest), last); }
        [t] + PrefixSums(Times(rest), t);
        [t] + EmittedTicks(msgs[1..], ticks[1..]);
        EmittedTicks(msgs, ticks);
      }
    }
  }

  /** The body of the track on the pulse path. */
  function PulseBody(w: seq<TimestampedMidiMsg>, ticksPerBeat: int): seq<TrackEvent>
    requires AnyPulse(w)
  {
    var sorted := Sorting.SortBy(w, PulseKey);
    Emit(sorted, PulseTicks(sorted, MinPulse(w), ticksPerBeat), 0)
  }

  /** The body of the track on the timestamp path; `w` is not empty. */
  function StampBody(w: seq<TimestampedMidiMsg>, ticksPerBeat: int): seq<TrackEvent>
    requires w != []
  {
    var sorted := Sorting.SortBy(w, StampKey);
    Emit(sorted, StampTicks(sorted, w[0].timestamp, ticksPerBeat), 0)
  }

  /** The track written for a buffer. */
  function TrackOf(msgs: seq<TimestampedMidiMsg>, windowSeconds: real, bpm: Option<real>,
                   ticksPerBeat: int, now: real): seq<TrackEvent>
  {
    if msgs == [] then MinimalTrack(bpm)
    else
      var w := Windowed(msgs, windowSeconds, now);
      if w == [] then MinimalTrack(bpm)
      else if AnyPulse(w) then Header(bpm) + PulseBody(w, ticksPerBeat)
      else Header(bpm) + StampBody(w, ticksPerBeat)
  }

  /** Later pulses never get earlier ticks. */
  lemma PulseTickMonotone(p: int, q: int, firstPulse: int, ticksPerBeat: int)
    requires firstPulse <= p <= q && ticksPerBeat >= 0
    ensures 0 <= TruncDiv((p - firstPulse) * ticksPerBeat, PPQN)
    ensures TruncDiv((p - firstPulse) * ticksPerBeat, PPQN) <= TruncDiv((q - firstPulse) * ticksPerBeat, PPQN)
  {
    MulMonotone(q - firstPulse, p - firstPulse, ticksPerBeat);
    MulMonotone(p - firstPulse, 0, ticksPerBeat);
    DivMonotone((p - firstPulse) * ticksPerBeat, (q - firstPulse) * ticksPerBeat, PPQN);
  }

  /** Later messages never get earlier ticks, and no message after `t0` gets a negative one. */
  lemma StampTickMonotone(a: TimestampedMidiMsg, b: TimestampedMidiMsg, t0: real, ticksPerBeat: int)
    requires t0 <= a.timestamp <= b.timestamp && ticksPerBeat >= 0
    ensures 0 <= StampTick(a, t0, ticksPerBeat) <= StampTick(b, t0, ticksPerBeat)
  {
    ScaledTicksMonotone(a.timestamp - t0, b.timestamp - t0, ticksPerBeat);
    TruncMonotone(0.0, ScaledTicks(a.timestamp - t0, ticksPerBeat));
    TruncMonotone(ScaledTicks(a.timestamp - t0, ticksPerBeat), ScaledTicks(b.timestamp - t0, ticksPerBeat));
  }

  lemma ScaledTicksMonotone(x: real, y: real, ticksPerBeat: int)
    requires 0.0 <= x <= y && ticksPerBeat >= 0
    ensures 0.0 <= ScaledTicks(x, ticksPerBeat) <= ScaledTicks(y, ticksPerBeat)
  {
    var c := ticksPerBeat as real / MsPerQuarter as real;
    assert 0.0 <= c;
    assert 0.0 <= x * 1000.0 <= y * 1000.0;
  }

  /** On the pulse path the ticks of the sorted messages start at 0 and never decrease. */
  lemma PulseTicksOrdered(w: seq<TimestampedMidiMsg>, ticksPerBeat: int)
    requires AnyPulse(w) && ticksPerBeat >= 0
    ensures TicksOrdered(PulseTicks(Sorting.SortBy(w, PulseKey), MinPulse(w), ticksPerBeat), 0)
  {
    var s := Sorting.SortBy(w, PulseKey);
    PermutationKeepsLowerBound(w, s, MinPulse(w));
    SortedPulseTicksOrdered(s, MinPulse(w), ticksPerBeat);
  }

  /** A bound on the pulses of `w` bounds the pulses of any rearrangement of `w`. */
  lemma PermutationKeepsLowerBound(w: seq<TimestampedMidiMsg>, s: seq<TimestampedMidiMsg>, fp: int)
    requires multiset(s) == multiset(w)
    requires forall i :: 0 <= i < |w| && w[i].pulse.Some? ==> fp <= w[i].pulse.value
    ensures forall i :: 0 <= i < |s| && s[i].pulse.Some? ==> fp <= s[i].pulse.value
  {
    forall i | 0 <= i < |s| && s[i].pulse.Some?
      ensures fp <= s[i].pulse.value
    {
      assert s[i] in multiset(w);
    }
  }

  /** Messages in pulse order, none before `fp`, get ticks that start at 0 and never decrease. */
  lemma SortedPulseTicksOrdered(s: seq<TimestampedMidiMsg>, fp: int, ticksPerBeat: int)
    requires Sorting.SortedBy(s, PulseKey) && ticksPerBeat >= 0
    requires forall i :: 0 <= i < |s| && s[i].pulse.Some? ==> fp <= s[i].pulse.value
    ensures TicksOrdered(PulseTicks(s, fp, ticksPerBeat), 0)
  {
    var ts := PulseTicks(s, fp, ticksPerBeat);
    forall i | 0 <= i < |s| && ts[i].Some?
      ensures ts[i].value >= 0
    {
      PulseTickMonotone(s[i].pulse.value, s[i].pulse.value, fp, ticksPerBeat);
    }
    forall i, j | 0 <= i < j < |s| && ts[i].Some? && ts[j].Some?
      ensures ts[i].value <= ts[j].value
    {
      assert PulseKey(s[i]) <= PulseKey(s[j]);
      PulseTickMonotone(s[i].pulse.value, s[j].pulse.value, fp, ticksPerBeat);
    }
  }

  /**
   * On the pulse path with a non-negative resolution, the running sum of
   * the delta times of the body reaches, event by event, the tick
   * `(pulse - first pulse) * ticksPerBeat / 24` of the message it encodes,
   * and event k encodes the k-th encodable message in pulse order.
   */
  lemma PulseTrackTimes(w: seq<TimestampedMidiMsg>, ticksPerBeat: int)
    requires AnyPulse(w) && ticksPerBeat >= 0
    ensures var sorted := Sorting.SortBy(w, PulseKey);
            var ticks := PulseTicks(sorted, MinPulse(w), ticksPerBeat);
            PrefixSums(Times(PulseBody(w, ticksPerBeat)), 0) == EmittedTicks(sorted, ticks)
            && |PulseBody(w, ticksPerBeat)| == |Emitted(sorted, ticks)|
  {
    var sorted := Sorting.SortBy(w, PulseKey);
    var ticks := PulseTicks(sorted, MinPulse(w), ticksPerBeat);
    PulseTicksOrdered(w, ticksPerBeat);
    EmitSums(sorted, ticks, 0);
    EmitEncodes(sorted, ticks, 0);
  }

  /** On the timestamp path, when no message is older than the first of the window, the ticks start at 0 and never decrease. */
  lemma StampTicksOrdered(w: seq<TimestampedMidiMsg>, ticksPerBeat: int)
    requires w != [] && ticksPerBeat >= 0
    requires forall i :: 0 <= i < |w| ==> w[i].timestamp >= w[0].timestamp
    ensures TicksOrdered(StampTicks(Sorting.SortBy(w, StampKey), w[0].timestamp, ticksPerBeat), 0)
  {
    var s := Sorting.SortBy(w, StampKey);
    var t0 := w[0].timestamp;
    var ts := StampTicks(s, t0, ticksPerBeat);
    forall i | 0 <= i < |s|
      ensures t0 <= s[i].timestamp
    {
      assert s[i] in multiset(w);
    }
    forall i | 0 <= i < |s|
      ensures ts[i].value >= 0
    {
      StampTickMonotone(s[i], s[i], t0, ticksPerBeat);
    }
    forall i, j | 0 <= i < j < |s|
      ensures ts[i].value <= ts[j].value
    {
      assert StampKey(s[i]) <= StampKey(s[j]);
      StampTickMonotone(s[i], s[j], t0, ticksPerBeat);
    }
  }

  /**
   * The same on the timestamp path: the delta times add up, event by
   * event, to the tick of the millisecond offset of the message encoded.
   */
  lemma StampTrackTimes(w: seq<TimestampedMidiMsg>, ticksPerBeat: int)
    requires w != [] && ticksPerBeat >= 0
    requires forall i :: 0 <= i < |w| ==> w[i].timestamp >= w[0].timestamp
    ensures var sorted := Sorting.SortBy(w, StampKey);
            var ticks := StampTicks(sorted, w[0].timestamp, ticksPerBeat);
            PrefixSums(Times(StampBody(w, ticksPerBeat)), 0) == EmittedTicks(sorted, ticks)
            && |StampBody(w, ticksPerBeat)| == |Emitted(sorted, ticks)|
  {
    var sorted := Sorting.SortBy(w, StampKey);
    var ticks := StampTicks(sorted, w[0].timestamp, ticksPerBeat);
    StampTicksOrdered(w, ticksPerBeat);
    EmitSums(sorted, ticks, 0);
    EmitEncodes(sorted, ticks, 0);
  }

  /** One iteration of the emission loop, seen from the whole emission. */
  lemma EmitStep(msgs: seq<TimestampedMidiMsg>, ticks: seq<Option<int>>, i: nat, last: int, body: seq<TrackEvent>)
    requires |msgs| == |ticks| && i < |msgs|
    requires body + Emit(msgs[i..], ticks[i..], last) == Emit(msgs, ticks, 0)
    ensures ticks[i].Some? && Encodable(msgs[i]) ==>
              (body + [Encode(msgs[i], Max(0, ticks[i].value - last)).value])
                + Emit(msgs[i + 1..], ticks[i + 1..], ticks[i].value) == Emit(msgs, ticks, 0)
    ensures !(ticks[i].Some? && Encodable(msgs[i])) ==>
              body + Emit(msgs[i + 1..], ticks[i + 1..], last) == Emit(msgs, ticks, 0)
  {
    assert msgs[i..][0] == msgs[i] && ticks[i..][0] == ticks[i];
    assert msgs[i..][1..] == msgs[i + 1..] && ticks[i..][1..] == ticks[i + 1..];
    if ticks[i].Some? && Encodable(msgs[i]) {
      var e := Encode(msgs[i], Max(0, ticks[i].value - last)).value;
      var rest := Emit(msgs[i + 1..], ticks[i + 1..], ticks[i].value);
      assert Emit(msgs[i..], ticks[i..], last) == [e] + rest;
      assert (body + [e]) + rest == body + ([e] + rest);
    }
  }

  /** The emission loop of both paths. */
  method EmitTrack(sorted: seq<TimestampedMidiMsg>, ticks: seq<Option<int>>) returns (body: seq<TrackEvent>)
    requires |sorted| == |ticks|
    ensures body == Emit(sorted, ticks, 0)
  {
    body := [];
    var lastTick := 0;
    assert sorted[0..] == sorted && ticks[0..] == ticks;
    for i := 0 to |sorted|
      invariant body + Emit(sorted[i..], ticks[i..], lastTick) == Emit(sorted, ticks, 0)
    {
      EmitStep(sorted, ticks, i, lastTick, body);
      if ticks[i].Some? {
        var tick := ticks[i].value;
        var delta := Max(0, tick - lastTick);
        var event := Encode(sorted[i], delta);
        if event.Some? {
          body := body + [event.value];
          lastTick := tick;
        }
      }
    }
    assert sorted[|sorted|..] == [];
  }

  /**
   * `buffer_to_tempfile_midi` up to the file write: the tempo, then either
   * one program change (nothing to encode) or the encoded messages with
   * their delta times.
   */
  method BufferToTrack(messages: seq<TimestampedMidiMsg>, windowSeconds: real, currentBpm: Option<real>,
                       ticksPerBeat: int, now: real) returns (track: seq<TrackEvent>)
    ensures track == TrackOf(messages, windowSeconds, currentBpm, ticksPerBeat, now)
    ensures Windowed(messages, windowSeconds, now) == [] ==> track == MinimalTrack(currentBpm)
    ensures track[..|Header(currentBpm)|] == Header(currentBpm)
    ensures forall i :: |Header(currentBpm)| <= i < |track| ==> Time(track[i]) >= 0 && !track[i].SetTempo?
  {
    track := Header(currentBpm);
    if messages == [] {
      track := track + [ProgramChange(0, 0)];
      return;
    }
    var windowed := Windowed(messages, windowSeconds, now);
    if windowed == [] {
      track := track + [ProgramChange(0, 0)];
      return;
    }
    var sorted: seq<TimestampedMidiMsg>;
    var ticks: seq<Option<int>>;
    if AnyPulse(windowed) {
      var firstPulse := MinPulse(windowed);
      sorted := Sorting.SortBy(windowed, PulseKey);
      ticks := PulseTicks(sorted, firstPulse, ticksPerBeat);
    } else {
      sorted := Sorting.SortBy(windowed, StampKey);
      ticks := StampTicks(sorted, windowed[0].timestamp, ticksPerBeat);
    }
    var body := EmitTrack(sorted, ticks);
    EmitEventsWellFormed(sorted, ticks, 0);
    track := track + body;
  }
}

=== FILE: pyint.dfy ===
/**
 * Python's integer operations where they differ from Dafny's:
 * `//` floors, `int(x)` truncates toward zero, and Dafny's own `/` is Euclidean.
 */
module PyInt {

  function Max(a: int, b: int): int
  {
    if a >= b then a else b
  }

  function Abs(a: int): nat
  {
    if a >= 0 then a else -a
  }

  /** Python's `a // b`: the quotient rounded toward minus infinity. */
  function FloorDiv(a: int, b: int): int
    requires b != 0
  {
    if b > 0 then a / b else (-a) / (-b)
  }

  /** The floored quotient is the largest q with q*b on the same side of a as 0 is of b. */
  lemma FloorDivBounds(a: int, b: int)
    requires b != 0
    ensures b > 0 ==> FloorDiv(a, b) * b <= a < FloorDiv(a, b) * b + b
    ensures b < 0 ==> FloorDiv(a, b) * b >= a > FloorDiv(a, b) * b + b
  {
    var q := FloorDiv(a, b);
    if b > 0 {
      assert a == q * b + a % b;
    } else {
      assert -a == q * (-b) + (-a) % (-b);
      assert q * (-b) == -(q * b);
    }
  }

  /** Python's `int(a / b)` on integers: the quotient rounded toward zero. */
  function TruncDiv(a: int, b: int): int
    requires b != 0
  {
    if (a >= 0 && b > 0) || (a <= 0 && b < 0) then Abs(a) / Abs(b) else -(Abs(a) / Abs(b))
  }

  /**
   * The truncated quotient is the largest magnitude that fits: |q|*|b| does
   * not exceed |a| and one more would; it is positive only when a and b
   * have the same sign.
   */
  lemma TruncDivBounds(a: int, b: int)
    requires b != 0
    ensures Abs(TruncDiv(a, b)) * Abs(b) <= Abs(a) < Abs(TruncDiv(a, b)) * Abs(b) + Abs(b)
    ensures TruncDiv(a, b) > 0 ==> (a > 0) == (b > 0)
  {
    var m := Abs(a) / Abs(b);
    QuotientBounds(Abs(a), Abs(b));
    assert Abs(m) == m && Abs(-m) == m;
  }

  /** Euclidean division of a natural number by a positive divisor leaves a remainder below the divisor. */
  lemma QuotientBounds(a: nat, b: int)
    requires b > 0
    ensures 0 <= a / b && (a / b) * b <= a < (a / b) * b + b
  {
    assert a == (a / b) * b + a % b;
  }

  /** Python's `int(x)` on a float, taken exactly: truncation toward zero. */
  function Trunc(x: real): (n: int)
    ensures 0.0 <= x ==> 0 <= n && n as real <= x < n as real + 1.0
    ensures x < 0.0 ==> n <= 0 && n as real - 1.0 < x <= n as real
  {
    if x >= 0.0 then x.Floor else -((-x).Floor)
  }

  /** The quotient of a division with a positive divisor is determined by the remainder bounds. */
  lemma DivisionUnique(a: int, b: int, q: int, r: int)
    requires b > 0 && a == q * b + r && 0 <= r < b
    ensures a / b == q && a % b == r
  {
    var q', r' := a / b, a % b;
    assert a == q' * b + r' && 0 <= r' < b;
    if q' > q {
      assert (q' - q) * b == q' * b - q * b;
      MulMonotone(q' - q, 1, b);
    } else if q' < q {
      assert (q - q') * b == q * b - q' * b;
      MulMonotone(q - q', 1, b);
    }
  }

  lemma MulMonotone(x: int, y: int, m: int)
    requires x >= y && m >= 0
    ensures x * m >= y * m
  {
  }

  /** Division by a positive divisor is monotone. */
  lemma DivMonotone(a: int, b: int, d: int)
    requires a <= b && d > 0
    ensures a / d <= b / d
  {
    if a / d > b / d {
      assert (b / d + 1) * d == (b / d) * d + d;
      MulMonotone(a / d, b / d + 1, d);
    }
  }

  /** Truncation toward zero is monotone on the reals. */
  lemma TruncMonotone(x: real, y: real)
    requires x <= y
    ensures Trunc(x) <= Trunc(y)
  {
  }
}

=== FILE: sorting.dfy ===
/** Python's `sorted(xs, key=...)`: a stable sort by a numeric key. */
module Sorting {

  predicate SortedBy<T>(s: seq<T>, key: T -> real)
  {
    forall i, j :: 0 <= i < j < |s| ==> key(s[i]) <= key(s[j])
  }

  /** Inserts `x` before the first element whose key is not smaller, so equal keys keep their order. */
  function Insert<T>(x: T, s: seq<T>, key: T -> real): (r: seq<T>)
    ensures multiset(r) == multiset(s) + multiset{x}
    ensures |r| == |s| + 1
  {
    if s == [] then [x]
    else if key(x) <= key(s[0]) then [x] + s
    else
      assert s == [s[0]] + s[1..];
      [s[0]] + Insert(x, s[1..], key)
  }

  /** Insertion into a sorted sequence keeps it sorted. */
  lemma {:induction false} InsertSorted<T>(x: T, s: seq<T>, key: T -> real)
    requires SortedBy(s, key)
    ensures SortedBy(Insert(x, s, key), key)
    ensures forall i :: 0 <= i < |Insert(x, s, key)| ==>
              key(Insert(x, s, key)[i]) >= key(x) || (s != [] && key(Insert(x, s, key)[i]) >= key(s[0]))
  {
    var r := Insert(x, s, key);
    if s == [] {
      assert r == [x];
    } else if key(x) <= key(s[0]) {
      assert r == [x] + s;
      forall i, j | 0 <= i < j < |r| ensures key(r[i]) <= key(r[j]) {
        if i == 0 {
          assert r[j] == s[j - 1];
          assert key(s[0]) <= key(s[j - 1]);
        } else {
          assert r[i] == s[i - 1] && r[j] == s[j - 1];
        }
      }
      forall i | 0 <= i < |r| ensures key(r[i]) >= key(x) || key(r[i]) >= key(s[0]) {
        if i > 0 {
          assert r[i] == s[i - 1];
          assert key(s[0]) <= key(s[i - 1]);
        }
      }
    } else {
      var tail := s[1..];
      assert SortedBy(tail, key) by {
        forall i, j | 0 <= i < j < |tail| ensures key(tail[i]) <= key(tail[j]) {
          assert tail[i] == s[i + 1] && tail[j] == s[j + 1];
        }
      }
      var rest := Insert(x, tail, key);
      InsertSorted(x, tail, key);
      assert r == [s[0]] + rest;
      forall i | 0 <= i < |rest| ensures key(s[0]) <= key(rest[i]) {
        if tail != [] {
          assert key(s[0]) <= key(s[1]);
        }
      }
      forall i, j | 0 <= i < j < |r| ensures key(r[i]) <= key(r[j]) {
        assert r[j] == rest[j - 1];
        if i > 0 {
          assert r[i] == rest[i - 1];
        }
      }
      forall i | 0 <= i < |r| ensures key(r[i]) >= key(s[0]) {
        if i > 0 {
          assert r[i] == rest[i - 1];
        }
      }
    }
  }

  function SortBy<T>(s: seq<T>, key: T -> real): (r: seq<T>)
    ensures multiset(r) == multiset(s)
    ensures |r| == |s|
    ensures SortedBy(r, key)
  {
    if s == [] then []
    else
      assert s == [s[0]] + s[1..];
      var sortedTail := SortBy(s[1..], key);
      InsertSorted(s[0], sortedTail, key);
      Insert(s[0], sortedTail, key)
  }
  /** The elements whose key is `k`, in their order in `s`. */
  function KeyFilter<T>(s: seq<T>, k: real, key: T -> real): (r: seq<T>)
    ensures forall i :: 0 <= i < |r| ==> key(r[i]) == k && r[i] in s
  {
    if s == [] then []
    else
      var rest := KeyFilter(s[1..], k, key);
      assert forall y :: y in s[1..] ==> y in s;
      if key(s[0]) == k then [s[0]] + rest else rest
  }

  /**
   * Insertion passes only elements with a smaller key, so `x` lands in
   * front of every element that shares its key and the others keep
   * their relative order.
   */
  lemma {:induction false} InsertKeyFilter<T>(x: T, t: seq<T>, k: real, key: T -> real)
    ensures KeyFilter(Insert(x, t, key), k, key) == (if key(x) == k then [x] else []) + KeyFilter(t, k, key)
  {
    var r := Insert(x, t, key);
    var own := if key(x) == k then [x] else [];
    if t == [] {
      assert r == [x] && r[1..] == [];
    } else if key(x) <= key(t[0]) {
      assert r[0] == x && r[1..] == t;
    } else {
      InsertKeyFilter(x, t[1..], k, key);
      assert r[0] == t[0] && r[1..] == Insert(x, t[1..], key);
      var head := if key(t[0]) == k then [t[0]] else [];
      assert KeyFilter(r, k, key) == head + (own + KeyFilter(t[1..], k, key));
      assert KeyFilter(t, k, key) == head + KeyFilter(t[1..], k, key);
      assert key(x) == k ==> head == [];
    }
  }

  /** Stability: elements with equal keys come out in the order they went in. */
  lemma {:induction false} SortByStable<T>(s: seq<T>, k: real, key: T -> real)
    ensures KeyFilter(SortBy(s, key), k, key) == KeyFilter(s, k, key)
  {
    if s != [] {
      SortByStable(s[1..], k, key);
      InsertKeyFilter(s[0], SortBy(s[1..], key), k, key);
    }
  }
}

=== FILE: tempo_tracker.dfy ===
/**
 * The tempo tracker: the same transport and pulse counter as the pulse
 * clock, plus a bounded window of the most recent inter-pulse intervals
 * from which a tempo estimate is derived.
 */
module Tempo {
  import opened Wrappers
  import Ports
  import Clock

  /** The tempo assumed before any estimate exists. */
  const DefaultBpm: real := 120.0

  /**
   * Appending to a deque with `maxlen = cap`: when the deque is full the
   * oldest entry is evicted first.
   */
  function BoundedAppend(s: seq<real>, x: real, cap: nat): (r: seq<real>)
    requires |s| <= cap
    ensures |r| <= cap
    ensures |r| == if |s| < cap then |s| + 1 else cap
    ensures cap > 0 ==> r[|r| - 1] == x
  {
    if |s| < cap then s + [x] else (s + [x])[|s| + 1 - cap..]
  }

  /** The window after appending each of `xs`, in order, to an empty deque of capacity `cap`. */
  function WindowOf(xs: seq<real>, cap: nat): (r: seq<real>)
    ensures |r| <= cap
  {
    if xs == [] then [] else BoundedAppend(WindowOf(xs[..|xs| - 1], cap), xs[|xs| - 1], cap)
  }

  /** However many intervals arrive, the window holds exactly the last `cap` of them (all, while fewer). */
  lemma {:induction false} WindowOfIsLatest(xs: seq<real>, cap: nat)
    ensures var n := if |xs| < cap then |xs| else cap;
            WindowOf(xs, cap) == xs[|xs| - n..]
  {
    if xs != [] {
      var pre := xs[..|xs| - 1];
      WindowOfIsLatest(pre, cap);
      assert pre + [xs[|xs| - 1]] == xs;
      LatestStep(pre, xs[|xs| - 1], cap);
    }
  }

  /** One append moves the "last `cap` values" window along by one. */
  lemma LatestStep(pre: seq<real>, x: real, cap: nat)
    ensures var n := if |pre| < cap then |pre| else cap;
            var m := if |pre| + 1 < cap then |pre| + 1 else cap;
            BoundedAppend(pre[|pre| - n..], x, cap) == (pre + [x])[|pre| + 1 - m..]
  {
    if |pre| >= cap {
      assert pre[|pre| - cap..] + [x] == (pre + [x])[|pre| - cap..];
    }
  }

  function Sum(s: seq<real>): real
  {
    if s == [] then 0.0 else Sum(s[..|s| - 1]) + s[|s| - 1]
  }

  function Mean(s: seq<real>): real
    requires s != []
  {
    Sum(s) / (|s| as real)
  }

  /** Beats per minute from the mean number of seconds per pulse. */
  function BpmOf(secondsPerPulse: real): real
    requires secondsPerPulse > 0.0
  {
    60.0 / (secondsPerPulse * Clock.PPQN as real)
  }

  /** The estimate is replaced only when more than one interval is held and their mean is positive. */
  function NextBpm(bpm: real, intervals: seq<real>): (r: real)
    ensures r != bpm ==> |intervals| > 1 && Mean(intervals) > 0.0
  {
    if |intervals| > 1 && Mean(intervals) > 0.0 then BpmOf(Mean(intervals)) else bpm
  }

  /** The tracker's state as a value. */
  datatype TempoState = TempoState(transport: Clock.Transport, intervals: seq<real>, bpm: real)

  /** The effect of one clock-port message on the tracker, with interval window `cap`. */
  function TempoStep(s: TempoState, msg: Clock.ClockMsg, now: real, cap: nat): (r: TempoState)
    requires |s.intervals| <= cap
    ensures |r.intervals| <= cap
    ensures msg == Clock.Start ==> r.intervals == [] && r.bpm == s.bpm
    ensures msg != Clock.ClockTick && msg != Clock.Start ==> r.intervals == s.intervals && r.bpm == s.bpm
    ensures msg == Clock.ClockTick && s.transport.lastTime.None? ==> r.intervals == s.intervals
    ensures msg == Clock.ClockTick && s.transport.lastTime.Some? && cap > 0 ==>
              |r.intervals| > 0 && r.intervals[|r.intervals| - 1] == now - s.transport.lastTime.value
  {
    match msg
    case Start => TempoState(Clock.Transport(true, 0, None), [], s.bpm)
    case Continue => s.(transport := s.transport.(running := true))
    case Stop => s.(transport := s.transport.(running := false))
    case ClockTick => PulseStep(s, now, cap)
    case OtherMsg => s
  }

  /**
   * One clock pulse: the counter advances and the time is recorded; when a
   * previous pulse time exists, the interval since it enters the window and
   * the estimate is recomputed.
   */
  function PulseStep(s: TempoState, now: real, cap: nat): (r: TempoState)
    requires |s.intervals| <= cap
    ensures |r.intervals| <= cap
    ensures r.transport == Clock.Transport(s.transport.running, s.transport.pulses + 1, Some(now))
    ensures s.transport.lastTime.None? ==> r.intervals == s.intervals && r.bpm == s.bpm
  {
    var t := Clock.Transport(s.transport.running, s.transport.pulses + 1, Some(now));
    if s.transport.lastTime.Some? then
      var iv := BoundedAppend(s.intervals, now - s.transport.lastTime.value, cap);
      TempoState(t, iv, NextBpm(s.bpm, iv))
    else TempoState(t, s.intervals, s.bpm)
  }

  /** The tracker's transport and counter move exactly as the pulse clock's do. */
  lemma TransportAgreesWithClock(s: TempoState, msg: Clock.ClockMsg, now: real, cap: nat)
    requires |s.intervals| <= cap
    ensures TempoStep(s, msg, now, cap).transport == Clock.Step(s.transport, msg, now)
  {
  }

  /** The first tick after a Start records a time but no interval. */
  lemma FirstTickAfterStart(s: TempoState, t0: real, t1: real, cap: nat)
    requires |s.intervals| <= cap
    ensures var afterStart := TempoStep(s, Clock.Start, t0, cap);
            TempoStep(afterStart, Clock.ClockTick, t1, cap).intervals == []
  {
  }

  class TempoTracker {
    const clockPortName: string
    const windowPulses: nat

    var isRunning: bool
    var currentBpm: real
    var lastClockTime: Option<real>
    var clockIntervals: seq<real>
    var pulseCount: int

    ghost predicate Valid()
      reads this
    {
      |clockIntervals| <= windowPulses
    }

    ghost function State(): TempoState
      reads this
    {
      TempoState(Clock.Transport(isRunning, pulseCount, lastClockTime), clockIntervals, currentBpm)
    }

    constructor (clockPortName: string, windowPulses: nat)
      ensures Valid()
      ensures this.clockPortName == clockPortName && this.windowPulses == windowPulses
      ensures State() == TempoState(Clock.Transport(false, 0, None), [], DefaultBpm)
    {
      this.clockPortName := clockPortName;
      this.windowPulses := windowPulses;
      isRunning := false;
      currentBpm := DefaultBpm;
      lastClockTime := None;
      clockIntervals := [];
      pulseCount := 0;
    }

    function ResolvePortName(available: seq<string>): (r: string)
      ensures clockPortName in available ==> r == clockPortName
      ensures clockPortName !in available && Ports.FirstPrefixMatch(clockPortName, available).Some? ==>
                r == Ports.FirstPrefixMatch(clockPortName, available).value
      ensures r in available || r == clockPortName
      ensures clockPortName <= r
    {
      Ports.ResolvePortName(clockPortName, available)
    }

    method HandleClockMessage(msg: Clock.ClockMsg, now: real)
      requires Valid()
      modifies this
      ensures Valid()
      ensures State() == TempoStep(old(State()), msg, now, windowPulses)
    {
      if msg == Clock.Start {
        isRunning := true;
        pulseCount := 0;
        lastClockTime := None;
        clockIntervals := [];
      } else if msg == Clock.Continue {
        isRunning := true;
      } else if msg == Clock.Stop {
        isRunning := false;
      } else if msg == Clock.ClockTick {
        HandleClockPulse(now);
      }
    }

    method HandleClockPulse(now: real)
      requires Valid()
      modifies this
      ensures Valid()
      ensures State() == PulseStep(old(State()), now, windowPulses)
    {
      var current := TempoState(Clock.Transport(isRunning, pulseCount, lastClockTime), clockIntervals, currentBpm);
      assert current == State();
      var next := PulseStep(current, now, windowPulses);
      clockIntervals := next.intervals;
      currentBpm := next.bpm;
      lastClockTime := Some(now);
      pulseCount := pulseCount + 1;
      assert State() == TempoState(next.transport, next.intervals, next.bpm);
    }
  }
}

=== FILE: wrappers.dfy ===
/** Optional values: Python's `None` versus a present value. */
module Wrappers {

  datatype Option<+T> = None | Some(value: T)

}
